=== FILE: README.md ===
# TypeCraft front end: identity, routing, font export and library

This project models the core of the TypeCraft web client, a font service:

- **Identity resolution** (App.tsx). A demo-user marker in browser storage
  takes priority over the remote auth session. A marker that does not parse
  is discarded. Once a marker is stored, auth events are ignored.
- **The route table** (App.tsx), which admits or redirects by whether a
  user is set.
- **The page frame** (components/Layout.tsx):
  - which paths are public;
  - what the frame renders for a visitor with no user;
  - the highlighted navigation entry and the credits figure;
  - the sign-out sequence.
- **The generator page** (pages/Generate.tsx):
  - the credit figure it loads;
  - the reference-image and preview guards;
  - the export. The export spends 5 credits through a remote deduct
    procedure and then stores a ready font record. A demo user is charged
    locally instead.
- **The library page** (pages/Dashboard.tsx):
  - the demo/real listing;
  - the keyword classifier for pairing suggestions;
  - the CDN address fallback;
  - the mutually exclusive pairing and embed panels.

Module layout:

- `Types` holds the records of types.ts.
- `Text` holds the string operations the pages use.
- `Platform` models the environment as a class `Env`:
  - the storage marker and the auth session;
  - the users and fonts tables and the transaction ledger;
  - an ordered trace of every storage write, table query, deduct and
    insert call, sign-out and navigation.
- `Session`, `Layout`, `Generate` and `Dashboard` follow the four core
  files.

Answers from outside come in as parameters. The deduct procedure and the
font insert take a `Reply` (accepted, or rejected with a message). Table
queries and `getUser()` take a flag saying whether the call succeeds. Each
page's state is a class whose methods update its fields. These methods are
proved equal to a pure step function: `App.OnInitialSession`
(`Session.InitialSessionStep`), `App.OnAuthStateChange`
(`Session.AuthChangeStep`), `GeneratePage.HandleExport`
(`Generate.ExportStep`), `DashboardPage.FetchFonts` (`Dashboard.Fetched`)
and the two toggles (`Dashboard.TogglePairingStep`,
`Dashboard.ToggleEmbedStep`). The source's promises about those are stated
as lemmas over the step functions. The remaining methods, `App.Mount`,
`GeneratePage.CheckCredits`, `GeneratePage.HandleFileChange` and
`GeneratePage.HandlePreview` among them, state their new state directly in
their postconditions.

Paths are compared the way the router compares them: ASCII letter case is
ignored and trailing slashes are dropped (`Text.RoutePath`). The page
frame compares the raw path exactly, as its code does.

## Model

| member | source | states |
|---|---|---|
| Types.Parse | App.tsx:37-48 | the one decoder of the stored marker, used by App, the generator and the library: a user exactly when the marker is a user record, and then that record |
| Text.Lower | pages/Dashboard.tsx:103 | lower-casing keeps the length and maps every character by ASCII case folding |
| Text.LowerIdempotent | pages/Dashboard.tsx:103 | lower-casing an already lower-cased prompt changes nothing |
| Text.ContainsAt | pages/Dashboard.tsx:106-116 | an occurrence of a keyword at any position makes `includes` true |
| Text.ContainsWitness | pages/Dashboard.tsx:106-116 | `includes` true means the keyword occurs at some position |
| Text.LexTotal | pages/Dashboard.tsx:71 | any two `created_at` timestamps are ordered one way or the other |
| Text.TrimKeepsNonSlash | App.tsx:103-110 | dropping trailing slashes keeps every position that holds some other character |
| Text.RoutePathFixed | App.tsx:103-110 | a path without upper-case letters or a trailing slash is matched as itself |
| Text.DecimalDigits | pages/Generate.tsx:160 | the rendered clock reading is non-empty, all digits, no leading zero |
| Text.DecimalRoundTrip | pages/Generate.tsx:160 | reading the rendered clock reading back gives the same number |
| Text.DecimalInjective | pages/Generate.tsx:160 | distinct clock readings render to distinct text |
| Platform.DemoUserIsDemo | pages/Auth.tsx:51-53 | the fixed demo account passes the `includes('demo')` test |
| Platform.IsDemoEmail | pages/Dashboard.tsx:35 | specification predicate of `email.includes('demo')`; its properties are stated by Platform.DemoUserIsDemo, Dashboard.DemoListing, Dashboard.DemoEmailAccountSeesFixedRecords and Generate.GeneratePage.CheckCredits |
| Platform.CallerOf | pages/Dashboard.tsx:19-31 | a session user wins; without one only a marker that parses yields a caller, namely its record |
| Platform.GetUser | pages/Generate.tsx:122 | `getUser()` reports an account exactly when the round trip succeeds and a session exists, and then that session's account |
| Platform.Lookup | App.tsx:83 | the users-table query returns a row exactly when it succeeds and the id has a row, and that row |
| Platform.DebitFacts | pages/Generate.tsx:143-148 | a committed deduct lowers exactly the caller's balance by the cost, keeps every other row, and keeps balances non-negative |
| Platform.SpentAppend | pages/Generate.tsx:143-146 | a new ledger entry adds exactly its own export charge to its owner's total |
| Platform.OwnedBy | pages/Dashboard.tsx:70 | the filtered rows are exactly the rows whose `user_id` is the caller's id |
| Platform.InsertNewestKeeps | pages/Dashboard.tsx:71 | inserting one row adds exactly that row to the multiset of rows |
| Platform.InsertNewestSorted | pages/Dashboard.tsx:71 | inserting one row into a newest-first list keeps it newest first |
| Platform.SortNewestFirstFacts | pages/Dashboard.tsx:71 | ordering by `created_at` descending is a permutation and is newest first |
| Platform.Listing | pages/Dashboard.tsx:67-71 | specification function of the fonts query; its properties are stated by Platform.ListingFacts, Platform.Env.QueryFonts and Dashboard.RealListing |
| Platform.ListingFacts | pages/Dashboard.tsx:67-71 | the listing holds exactly the caller's rows, as a permutation of them, newest first |
| Platform.Env.WriteMarker | App.tsx:24 | the marker holds the record, which is truthy; one write is traced |
| Platform.Env.RemoveMarker | App.tsx:29 | the marker is gone; one removal is traced |
| Platform.Env.SignOut | App.tsx:32 | the remote session is cleared; one sign-out call is traced |
| Platform.Env.Navigate | pages/Generate.tsx:166 | one navigation to the path is traced |
| Platform.Env.QueryUserRow | App.tsx:83 | the returned row is `Lookup` of the table; one query is traced |
| Platform.Env.QueryFonts | pages/Dashboard.tsx:67-71 | rows come back exactly when the query succeeds and are the caller's listing; one query is traced |
| Platform.Env.DeductCredits | pages/Generate.tsx:143-148 | success exactly when accepted and covered; then the balance drops by the cost and one ledger entry is appended; on refusal nothing changes and the refusal message is returned; balance plus charges is conserved |
| Platform.Env.InsertFont | pages/Generate.tsx:153-163 | the row is appended exactly when the insert is accepted, otherwise the reply's message is returned |
| Session.Adopt | App.tsx:84-89 | specification function of the adopted user; its properties are stated by Session.ResolutionOutcome and Session.App.FetchUserData |
| Session.InitialSessionStep | App.tsx:52-61 | specification function of the first session result; its properties are stated by Session.ResolutionOutcome and Session.App.OnInitialSession |
| Session.AuthChangeStep | App.tsx:66-76 | specification function of one auth event; its properties are stated by Session.DemoMarkerPins, Session.LastEventWins and Session.ResolutionOutcome |
| Session.Route | App.tsx:103-110 | specification function of the route table; its properties are stated by Session.SignInGate, Session.ProtectedGate, Session.RedirectSettles and the Layout lemmas |
| Session.DemoMarkerPins | App.tsx:66-68 | while a marker is stored, no run of auth events, whatever session they report, changes the user or loading |
| Session.LastEventWins | App.tsx:66-76 | without a marker the last auth event alone decides the state, and loading has ended |
| Session.ResolutionOutcome | App.tsx:52-91 | both callbacks end loading; a session yields a user with its id and a non-negative balance; no session clears the user on an auth change and keeps it on the first result |
| Session.SignInGate | App.tsx:104 | the sign-in page shows exactly for a path the router reads as `/auth` with no user; a signed-in visitor there is sent to `/dashboard` |
| Session.ProtectedGate | App.tsx:105-107 | a path the router reads as a protected one shows its page exactly when a user is set, else redirects to `/auth` |
| Session.RedirectSettles | App.tsx:103-110 | every redirect lands on a path that the same visitor is shown |
| Session.App.constructor | App.tsx:19-20 | no user, loading, no listener |
| Session.App.Mount | App.tsx:35-76 | a parsing marker becomes the user, ends loading and registers no listener; a non-parsing one is removed and resolution continues; otherwise the listener is registered |
| Session.App.FetchUserData | App.tsx:81-91 | the stored row is adopted, or a zero-credit user with the given id and email; loading ends |
| Session.App.OnInitialSession | App.tsx:52-61 | the state becomes the first-result step function of the marker state and the event; a query is traced only for a session without a marker |
| Session.App.OnAuthStateChange | App.tsx:66-76 | the state becomes the auth-change step function of the marker state and the event |
| Session.App.Unmount | App.tsx:78 | the listener is released |
| Session.App.HandleDemoLogin | App.tsx:23-26 | the marker is written before the user is set, and the user is the given record |
| Session.App.HandleLogout | App.tsx:28-33 | the marker is removed, the user cleared, then the remote sign-out is called, in that order |
| Layout.IsPublic | components/Layout.tsx:35-39 | specification predicate of `isPublic`; its properties are stated by Layout.PublicPaths, Layout.ProtectedNotPublic and Layout.PublicRoutePath |
| Layout.IsActive | components/Layout.tsx:32 | specification predicate of `isActive`; its properties are stated by Layout.AtMostOneActive and Layout.ActiveEntryIsShownPage |
| Layout.CreditsShown | components/Layout.tsx:72 | no user shows 0; a user shows its balance |
| Layout.Guard | components/Layout.tsx:41-48 | the placeholder exactly for no user on a non-public path; the bare frame exactly on a public path; otherwise the shell with the user's balance |
| Layout.PublicPaths | components/Layout.tsx:35-39 | every path under `/auth` and each of `/`, `/terms`, `/privacy`, `/guide` is public |
| Layout.ProtectedNotPublic | components/Layout.tsx:35-39 | none of the route table's protected paths is public |
| Layout.GuardHidesOnlyPrivate | components/Layout.tsx:41-48 | children are hidden exactly for no user on a non-public path; a public path renders the same bare frame with or without a user |
| Layout.SlashedGuideHidden | components/Layout.tsx:35-44 | as written: `/guide/` with no user is shown the guide by the router but only the placeholder by the frame |
| Layout.VisitorPagesPassGuard | App.tsx:103-110 | corrected: with the guard applied to the path as the router reads it, every page the route table shows a visitor with no user passes the guard |
| Layout.PublicRoutePath | components/Layout.tsx:35-39 | a public path, read as the router reads it, is `/`, `/terms`, `/privacy`, `/guide` or starts with `/a` |
| Layout.RedirectToSignInNotRendered | components/Layout.tsx:41-44 | where the route table would redirect a visitor to `/auth`, the frame renders only the placeholder |
| Layout.AtMostOneActive | components/Layout.tsx:50-69 | no two navigation entries are highlighted at once |
| Layout.ActiveEntryIsShownPage | components/Layout.tsx:32-69 | a highlighted navigation entry is the page the route table shows a signed-in visitor at that path |
| Layout.HandleSignOut | components/Layout.tsx:21-30 | the shell's logout handler (when passed), then the remote sign-out, then navigation to `/`, in that order; the session ends cleared |
| Generate.OrDefault | pages/Generate.tsx:168 | a non-empty message is kept; an empty one becomes the fallback, so the result is non-empty whenever the fallback is |
| Generate.ExportReason | pages/Generate.tsx:145 | specification function of the ledger reason; the traced deduct call carrying it is stated by Generate.ExportSessionFirst, Generate.DeductFailureWritesNothing and Generate.ExportSucceeds |
| Generate.StyleName | pages/Generate.tsx:155 | the stored name is the entered name, or "Custom Font" when empty; never empty |
| Generate.MockUrlsDistinct | pages/Generate.tsx:160 | exports at different clock readings get different download addresses |
| Generate.ShownCredits | pages/Generate.tsx:46-49 | corrected display, not used by the page class: a demo record shows its balance as stored; a session account with a demo email shows 100 |
| Generate.ShownCreditsAsWritten | pages/Generate.tsx:48 | as written, and what the page class shows: a demo balance of 0 is shown as 100, any other as stored |
| Generate.VisitsWhileFunded | pages/Generate.tsx:113-132 | while the balance covers every visit, each demo export takes exactly 5 credits |
| Generate.AsWrittenDemoBalanceGoesNegative | pages/Generate.tsx:48 | as written, the demo user's 100 credits reach 0 after twenty exports and -5 after the twenty-first |
| Generate.DemoBalanceStaysNonNegative | pages/Generate.tsx:113-132 | with the corrected display, demo exports never take a non-negative balance below zero, and a short balance is left alone |
| Generate.ExportStep | pages/Generate.tsx:110-172 | specification function of one export attempt; its properties are stated by the Generate lemmas from Generate.EnabledExportNotBlocked to Generate.ShortAccountRefused, and Generate.GeneratePage.HandleExport is proved equal to it |
| Generate.EnabledExportNotBlocked | pages/Generate.tsx:113-116 | an export attempt from an enabled button (line 393) is never refused for credits |
| Generate.DemoVisitMatchesPage | pages/Generate.tsx:46-49 | a figure loaded by either display rule followed by an export without a session stores the record `Visit` computes for that rule |
| Generate.ExportGuard | pages/Generate.tsx:113-116 | an attempt is refused exactly when the shown figure is under 5, with the message and no other change; every other attempt ends not exporting |
| Generate.ExportWithoutSessionIsLocal | pages/Generate.tsx:122-140 | without a session no table, ledger, deduct or insert is touched; a parsing marker is charged 5 locally; otherwise an error and no change |
| Generate.ExportSessionFirst | pages/Generate.tsx:122-146 | with a session the marker is ignored and the deduct call comes first |
| Generate.DeductFailureWritesNothing | pages/Generate.tsx:143-148 | a refused deduct writes no row, no ledger entry and no balance, and shows a non-empty error |
| Generate.ReadyRowOnlyAfterDebit | pages/Generate.tsx:143-161 | a font row appears only with a committed 5-credit charge and ledger entry for the same owner, and it is a ready row of that owner |
| Generate.ExportSucceeds | pages/Generate.tsx:143-166 | the converse: enough credits, a committed deduct and an accepted insert store exactly one new ready row of the account's, debit it by 5 with one ledger entry, clear the error and navigate to the library |
| Generate.InsertFailureKeepsCharge | pages/Generate.tsx:153-168 | a refused insert after a committed deduct refunds nothing: balance down 5, charges up 5, no row, an error |
| Generate.ExportConservesCredits | pages/Generate.tsx:143-163 | every attempt keeps each owner's balance plus recorded charges constant and balances non-negative |
| Generate.TwoExportsFromHundred | pages/Generate.tsx:110-166 | two exports from 100 credits leave 95 and then 90, with two new rows |
| Generate.ShortAccountRefused | pages/Generate.tsx:113-116 | an account showing 3 credits is refused and keeps 3 |
| Generate.GeneratePage.constructor | pages/Generate.tsx:13-32 | empty form, no preview, not busy, no error, figure 0 |
| Generate.GeneratePage.CheckCredits | pages/Generate.tsx:34-57 | the caller is found through `getUser()` and the marker; a demo-email caller gets `user.credits \|\| 100` without a query; anyone else gets the row's balance when one comes back; nobody to act for changes nothing |
| Generate.GeneratePage.HandleFileChange | pages/Generate.tsx:59-74 | no file changes nothing; a file over 5 MiB only sets the size error; any other becomes the reference image |
| Generate.GeneratePage.HandlePreview | pages/Generate.tsx:83-108 | without prompt or image nothing happens; otherwise the preview is the generator's answer, or the failure message, and generation ends |
| Generate.GeneratePage.HandleExport | pages/Generate.tsx:110-172 | the page and the environment end as `ExportStep` describes for the account `getUser()` reports, and the users table stays well formed |
| Dashboard.GetPairings | pages/Dashboard.tsx:102-128 | always two suggestions with distinct names and non-empty reasons |
| Dashboard.ThemeOf | pages/Dashboard.tsx:106-127 | specification function of the keyword rules; its properties are stated by Dashboard.PairingRules, Dashboard.SerifRuleFirst and Dashboard.MixedCaseKeyword |
| Dashboard.PairingRules | pages/Dashboard.tsx:106-127 | each rule applies exactly when its keywords occur in the lower-cased prompt and no earlier rule applies |
| Dashboard.SerifRuleFirst | pages/Dashboard.tsx:106-110 | "serif" without "sans" gives Inter and Lato whatever other keywords occur |
| Dashboard.PairingsIgnoreCase | pages/Dashboard.tsx:103 | a prompt and its lower-cased form get the same suggestions |
| Dashboard.MixedCaseKeyword | pages/Dashboard.tsx:103-115 | "script" in any letter case selects the handwriting rule or the serif rule before it |
| Dashboard.CdnUrl | pages/Dashboard.tsx:166 | the stored address when non-empty, otherwise the address built from owner and font id; never empty |
| Dashboard.FallbackInjective | pages/Dashboard.tsx:166 | for owner ids without a slash, distinct (owner, font) pairs get distinct fallback addresses |
| Dashboard.ExportedRowUsesItsAddress | pages/Dashboard.tsx:166 | a row stored by the generator is embedded from its own mock address |
| Dashboard.DemoFonts | pages/Dashboard.tsx:36-61 | two ready records with distinct ids, both owned by the caller, each embedded from its own address |
| Dashboard.Fetched | pages/Dashboard.tsx:16-81 | specification function of the library fetch; its properties are stated by Dashboard.DemoListing, Dashboard.RealListing, Dashboard.SessionBeatsMarker, Dashboard.DemoLoginSeesFixedLibrary and Dashboard.DemoEmailAccountSeesFixedRecords |
| Dashboard.DemoListing | pages/Dashboard.tsx:35-63 | a demo email gets exactly the two fixed records and no query |
| Dashboard.RealListing | pages/Dashboard.tsx:67-75 | any other caller gets exactly its own rows, as a permutation, newest first |
| Dashboard.SessionBeatsMarker | pages/Dashboard.tsx:19-31 | with a non-demo session every listed row belongs to the session account, whatever the marker holds |
| Dashboard.DemoLoginSeesFixedLibrary | pages/Dashboard.tsx:19-63 | after the demo login (marker only, no session) the library is the two fixed records and the table is never queried |
| Dashboard.DemoEmailAccountSeesFixedRecords | pages/Dashboard.tsx:35 | every signed-in account whose email contains "demo" is shown the fixed records and its rows are never read, whatever the marker holds and whether or not the table is reachable |
| Dashboard.TogglePairingStep | pages/Dashboard.tsx:286-289 | specification function of the pairings button; its properties are stated by Dashboard.TogglesKeepPanelsExclusive, Dashboard.ToggleTwice, Dashboard.PairingThenEmbed and Dashboard.DashboardPage.TogglePairing |
| Dashboard.ToggleEmbedStep | pages/Dashboard.tsx:298-301 | specification function of the embed button; its properties are stated by Dashboard.TogglesKeepPanelsExclusive, Dashboard.ToggleTwice, Dashboard.PairingThenEmbed and Dashboard.DashboardPage.ToggleEmbed |
| Dashboard.TogglesKeepPanelsExclusive | pages/Dashboard.tsx:286-301 | either button leaves at most one panel open and flips the clicked panel of the clicked font |
| Dashboard.ToggleTwice | pages/Dashboard.tsx:286-301 | clicking the same button twice restores that panel exactly when it was closed or open for that font |
| Dashboard.PairingThenEmbed | pages/Dashboard.tsx:286-301 | from any panel state, clicking pairings and then embed for one font leaves only its embed panel open |
| Dashboard.DashboardPage.constructor | pages/Dashboard.tsx:10-13 | no fonts, loading, no panel open |
| Dashboard.DashboardPage.FetchFonts | pages/Dashboard.tsx:16-81 | the library becomes `Fetched` of the caller found through `getUser()` and the marker, loading ends, the table is queried exactly for a non-demo caller, panels unchanged |
| Dashboard.DashboardPage.TogglePairing | pages/Dashboard.tsx:286-289 | the panels follow the pairing toggle and at most one is open |
| Dashboard.DashboardPage.ToggleEmbed | pages/Dashboard.tsx:298-301 | the panels follow the embed toggle and at most one is open |

## Left out

- The body of the `deduct_credits` procedure is not part of this model. It
  is modelled as committing when it is reached, a row exists for the caller
  and the balance covers the cost. A commit lowers the balance and appends
  one export ledger entry; a refusal changes nothing.
- Asynchrony: each awaited call is one step. Interleavings of callbacks and
  unmounts, and the 1-second simulated delay before the demo export
  navigates, are not modelled.
- JSON: the marker is either a user record or text that does not parse.
  Text that parses to something other than a user record is not modelled.
  The engine's parse-error text is a stand-in constant.
- CheckCredits: a marker that does not parse throws there with no handler.
  The model leaves the figure unchanged and makes no query, which is what
  the page shows.
- Rendering: JSX, styling, the theme, the mobile menu, the loading screen of
  App, the status icons and the embed snippet text are not modelled.
- Clipboard copying (`handleCopy`) and its 2-second reset timer are not
  modelled (browser I/O).
- Generator settings (preview text, colours, style, weight) are passed
  through to the external generator and not modelled. The generator itself
  is an oracle answer, and `clearImage` is not modelled.
- Clocks and ids come in as parameters (`ExportReplies`, `now`,
  `dayBefore`).
- Text.Lower folds ASCII letters only; JavaScript's full Unicode case
  mapping is not modelled.
- Font prompts: types.ts declares `prompt: string`, so a null prompt
  column, which pages/Dashboard.tsx:103 defaults to the empty string, is not
  modelled.
- Platform.Env.QueryFonts: rows with equal `created_at` come back in one
  fixed order (that of a stable insertion); the database leaves the order of
  such ties unspecified. The lemmas about the listing state only its
  multiset and its newest-first order.
- Path matching: the router's handling of repeated slashes, `..`
  segments, query strings and non-ASCII case is not modelled; only ASCII
  case and trailing slashes are normalised.
- The page classes use the display rule as written
  (`ShownCreditsAsWritten`); the corrected rule is stated beside it.

## Findings

| source | as written | input that shows it | evidently intended | confidence | as-written member | corrected member |
|---|---|---|---|---|---|---|
| pages/Generate.tsx:48 | `user.credits \|\| 100` treats a demo balance of 0 as missing and shows 100. The guard at line 113 then passes, and line 129 stores 0 - 5. | The demo user (100 credits) exports twenty times, then opens the generator again and exports: the stored balance becomes -5. | Show the stored balance, so the guard refuses once fewer than 5 credits remain. | not executed | Generate.AsWrittenDemoBalanceGoesNegative | Generate.DemoBalanceStaysNonNegative |
| components/Layout.tsx:35-39 | `isPublic` compares `location.pathname` exactly, while the route table at App.tsx:103-110 matches without regard to letter case or a trailing slash. | `/guide/` (or `/Terms`) with no user: the router shows the public page, the frame renders only "Loading or Redirecting...". | Decide publicness on the path as the router reads it, so every page shown to a visitor is rendered. | not executed | Layout.SlashedGuideHidden | Layout.VisitorPagesPassGuard |

=== FILE: dashboard.dfy ===
/** The font library page: whose fonts it lists (two fixed records for a
    demo identity, the owner's own rows newest first otherwise), the pairing
    suggestions for a font, the CDN address its embed snippet uses, and the
    two expandable panels of a card. */
module Dashboard {
  import opened Types
  import opened Text
  import opened Platform
  import Generate

  /** A companion typeface suggested for a font. */
  datatype Pairing = Pairing(name: string, kind: string, reason: string)

  /** The keyword rule a prompt falls under, in the order the rules are
      tried. */
  datatype Theme = SerifLed | Handwritten | Technical | Display

  /** The keyword tests, on a prompt that is already lower-cased. */
  predicate SerifKeywords(p: string)
  {
    Contains(p, "serif") && !Contains(p, "sans")
  }

  predicate HandKeywords(p: string)
  {
    Contains(p, "script") || Contains(p, "hand") || Contains(p, "doodle")
  }

  predicate TechKeywords(p: string)
  {
    Contains(p, "mono") || Contains(p, "code") || Contains(p, "tech")
  }

  /** Which rule applies to a prompt that is already lower-cased. */
  function ThemeOf(p: string): Theme
  {
    if SerifKeywords(p) then SerifLed
    else if HandKeywords(p) then Handwritten
    else if TechKeywords(p) then Technical
    else Display
  }

  /** The two suggestions of each rule. */
  function Suggestions(t: Theme): (r: seq<Pairing>)
    ensures |r| == 2 && r[0].name != r[1].name
    ensures r[0].reason != "" && r[1].reason != ""
  {
    match t
    case SerifLed => [
      Pairing("Inter", "Sans-serif", "Clean modern sans to balance the serif details."),
      Pairing("Lato", "Sans-serif", "Neutral and legible for body text.")]
    case Handwritten => [
      Pairing("Montserrat", "Sans-serif", "Geometric structure stabilizes the organic script."),
      Pairing("Raleway", "Sans-serif", "Elegant thin weights complement the handwritten vibe.")]
    case Technical => [
      Pairing("Inter", "Sans-serif", "Humanist sans softens the technical feel."),
      Pairing("Space Grotesk", "Sans-serif", "Quirky sans that matches the tech aesthetic.")]
    case Display => [
      Pairing("Merriweather", "Serif", "High readability serif for long-form content."),
      Pairing("Open Sans", "Sans-serif", "Friendly neutral companion.")]
  }

  /** `getPairings`: always two suggestions with distinct names, decided by
      the lower-cased prompt. */
  function GetPairings(f: Font): (r: seq<Pairing>)
    ensures |r| == 2 && r[0].name != r[1].name
    ensures r[0].reason != "" && r[1].reason != ""
  {
    Suggestions(ThemeOf(Lower(f.prompt)))
  }

  /** Each rule, read back from the second suggestion, holds exactly when its
      keywords are present in the lower-cased prompt and no earlier rule
      applies. */
  lemma PairingRules(f: Font)
    ensures var p := Lower(f.prompt);
      var second := GetPairings(f)[1].name;
      && (second == "Lato" <==> SerifKeywords(p))
      && (second == "Raleway" <==> !SerifKeywords(p) && HandKeywords(p))
      && (second == "Space Grotesk" <==> !SerifKeywords(p) && !HandKeywords(p) && TechKeywords(p))
      && (second == "Open Sans" <==> !SerifKeywords(p) && !HandKeywords(p) && !TechKeywords(p))
  {
  }

  /** Only the serif rule and the technical rule lead with Inter, and the
      serif rule is tried first: a prompt with "serif", no "sans" and also
      "script" or "code" still gets Inter and Lato. */
  lemma SerifRuleFirst(f: Font)
    requires SerifKeywords(Lower(f.prompt))
    ensures GetPairings(f)[0].name == "Inter" && GetPairings(f)[1].name == "Lato"
  {
  }

  /** Matching ignores case: a prompt and its lower-cased form get the same
      suggestions. */
  lemma PairingsIgnoreCase(f: Font)
    ensures GetPairings(f.(prompt := Lower(f.prompt))) == GetPairings(f)
  {
    LowerIdempotent(f.prompt);
  }

  /** Upper-case letters in a keyword still select its rule: any prompt whose
      lower-cased form holds "script" is handled by the handwriting rule or
      the serif rule before it. */
  lemma MixedCaseKeyword(f: Font, i: nat)
    requires i + 6 <= |f.prompt| && Lower(f.prompt[i..i + 6]) == "script"
    ensures GetPairings(f)[1].name in {"Lato", "Raleway"}
  {
    var p := Lower(f.prompt);
    assert p[i..i + 6] == Lower(f.prompt[i..i + 6]);
    ContainsAt(p, "script", i);
  }

  const CdnPrefix: string := "https://cdn.typecraft.ai/u/"

  /** The address built from owner and font id when a row has none. */
  function FallbackUrl(userId: string, fontId: string): string
  {
    CdnPrefix + userId + "/" + fontId + ".woff2"
  }

  /** `font.download_woff2_url || <fallback>`: the stored address unless it
      is missing or empty. */
  function CdnUrl(f: Font): (u: string)
    ensures u != ""
    ensures f.download_woff2_url.Some? && f.download_woff2_url.value != "" ==> u == f.download_woff2_url.value
    ensures f.download_woff2_url.None? || f.download_woff2_url.value == "" ==> u == FallbackUrl(f.user_id, f.id)
  {
    if f.download_woff2_url.Some? && f.download_woff2_url.value != "" then f.download_woff2_url.value
    else FallbackUrl(f.user_id, f.id)
  }

  /** Where the shorter owner id ends, its address has the slash and the
      longer one has a character of its id. */
  lemma SlashAt(short: string, i1: string, long: string, i2: string)
    requires |short| < |long|
    ensures (short + "/" + i1)[|short|] == '/'
    ensures (long + "/" + i2)[|short|] == long[|short|] && long[|short|] in long
  {
  }

  /** Two texts with a common prefix are equal when the rests are. */
  lemma DropPrefix(p: string, x: string, y: string)
    requires p + x == p + y
    ensures x == y
  {
    assert x == (p + x)[|p|..];
  }

  /** Two texts with a common suffix are equal when the fronts are. */
  lemma DropSuffix(x: string, y: string, sfx: string)
    requires x + sfx == y + sfx
    ensures x == y
  {
    assert x == (x + sfx)[..|x|];
  }

  /** An owner id without a slash is read back off `owner/font`. */
  lemma SplitAtSlash(u1: string, i1: string, u2: string, i2: string)
    requires '/' !in u1 && '/' !in u2
    requires u1 + "/" + i1 == u2 + "/" + i2
    ensures u1 == u2 && i1 == i2
  {
    var a := u1 + "/" + i1;
    var b := u2 + "/" + i2;
    assert |u1| == |u2| by {
      if |u1| < |u2| {
        SlashAt(u1, i1, u2, i2);
        assert false;
      } else if |u2| < |u1| {
        SlashAt(u2, i2, u1, i1);
        assert false;
      }
    }
    assert u1 == a[..|u1|] == b[..|u2|] == u2;
    DropPrefix(u1 + "/", i1, i2);
  }

  /** Owner ids without a slash give each (owner, font) pair its own
      fallback address. */
  lemma FallbackInjective(u1: string, i1: string, u2: string, i2: string)
    requires '/' !in u1 && '/' !in u2
    requires FallbackUrl(u1, i1) == FallbackUrl(u2, i2)
    ensures u1 == u2 && i1 == i2
  {
    var a := u1 + "/" + i1;
    var b := u2 + "/" + i2;
    assert FallbackUrl(u1, i1) == CdnPrefix + a + ".woff2";
    assert FallbackUrl(u2, i2) == CdnPrefix + b + ".woff2";
    DropSuffix(CdnPrefix + a, CdnPrefix + b, ".woff2");
    DropPrefix(CdnPrefix, a, b);
    SplitAtSlash(u1, i1, u2, i2);
  }

  /** A row the generator stored is embedded from its own mock address. */
  lemma ExportedRowUsesItsAddress(r: Generate.ExportReplies, uid: string, name: string, prompt: string, preview: Option<string>)
    ensures CdnUrl(Generate.ExportRow(r, uid, name, prompt, preview)) == Generate.MockWoff2Url(r.millis)
  {
  }

  /** The two fixed records a demo identity sees, stamped now and a day
      earlier. */
  function DemoFonts(uid: string, now: string, dayBefore: string): (r: seq<Font>)
    ensures |r| == 2 && r[0].id != r[1].id
    ensures forall f | f in r :: f.user_id == uid && f.status == Ready && f.download_woff2_url.Some? && CdnUrl(f) == f.download_woff2_url.value
  {
    [ Font("demo-font-1", uid, "Demo Sans", "A clean modern sans serif for a tech startup", Ready,
           Some("https://placehold.co/800x400/1a1a1a/ffffff?text=Demo+Sans&font=roboto"),
           Some("#"), Some("#"), Some("https://cdn.typecraft.ai/demo/demo-sans-v1.woff2"), now),
      Font("demo-font-2", uid, "Vintage Script", "Elegant handwritten script, 1950s cola vibe", Ready,
           Some("https://placehold.co/800x400/aa2222/ffffff?text=Cola+Vibe&font=playfair-display"),
           Some("#"), Some("#"), Some("https://cdn.typecraft.ai/demo/vintage-script-v1.woff2"), dayBefore) ]
  }

  /** What the library holds after the fetch: unchanged with nobody to act
      for or when the query fails, the fixed records for a demo email, the
      owner's rows newest first otherwise. */
  function Fetched(c: Option<Caller>, table: seq<Font>, reachable: bool, now: string, dayBefore: string, current: seq<Font>): seq<Font>
  {
    if c.None? then current
    else if IsDemoEmail(c.value.Email()) then DemoFonts(c.value.Id(), now, dayBefore)
    else if reachable then Listing(table, c.value.Id())
    else current
  }

  /** Whether the fetch queries the fonts table at all. */
  predicate Queries(c: Option<Caller>)
  {
    c.Some? && !IsDemoEmail(c.value.Email())
  }

  /** A demo identity always gets exactly the two fixed ready records, owned
      by that identity, whatever the table holds; nobody else gets them from
      this branch. */
  lemma DemoListing(c: Caller, table: seq<Font>, reachable: bool, now: string, dayBefore: string, current: seq<Font>)
    requires IsDemoEmail(c.Email())
    ensures var r := Fetched(Some(c), table, reachable, now, dayBefore, current);
      && !Queries(Some(c))
      && |r| == 2 && r[0].id == "demo-font-1" && r[1].id == "demo-font-2"
      && forall f | f in r :: f.user_id == c.Id() && f.status == Ready
  {
  }

  /** A listing from the table holds exactly the caller's rows, each once
      per stored copy, newest first. */
  lemma RealListing(c: Caller, table: seq<Font>, now: string, dayBefore: string, current: seq<Font>)
    requires !IsDemoEmail(c.Email())
    ensures var r := Fetched(Some(c), table, true, now, dayBefore, current);
      && Queries(Some(c))
      && (forall f :: f in r <==> f in table && f.user_id == c.Id())
      && multiset(r) == multiset(OwnedBy(table, c.Id()))
      && NewestFirst(r)
  {
    ListingFacts(table, c.Id());
  }

  /** The session account wins over a stored marker: with a session whose
      email is not a demo email, the listing is that account's rows however
      the marker reads. */
  lemma SessionBeatsMarker(a: Account, m: Option<Marker>, table: seq<Font>, now: string, dayBefore: string, current: seq<Font>)
    requires !IsDemoEmail(a.email)
    ensures forall f | f in Fetched(CallerOf(Some(a), m), table, true, now, dayBefore, current) :: f.user_id == a.id
  {
    RealListing(AuthCaller(a), table, now, dayBefore, current);
  }

  /** The demo test looks only at the email: a signed-in account whose email
      contains "demo" is shown the fixed records and its own rows are never
      read. */
  lemma DemoEmailAccountSeesFixedRecords(a: Account, m: Option<Marker>, table: seq<Font>, reachable: bool, now: string, dayBefore: string, current: seq<Font>)
    requires IsDemoEmail(a.email)
    ensures && !Queries(CallerOf(Some(a), m))
            && Fetched(CallerOf(Some(a), m), table, reachable, now, dayBefore, current) == DemoFonts(a.id, now, dayBefore)
  {
  }

  /** After the demo login stores the fixed demo account, a library opened
      without a session shows the two fixed records for that account and
      never queries the table. */
  lemma DemoLoginSeesFixedLibrary(table: seq<Font>, reachable: bool, now: string, dayBefore: string, current: seq<Font>)
    ensures var c := CallerOf(None, Some(Record(DemoUser)));
      && !Queries(c)
      && Fetched(c, table, reachable, now, dayBefore, current) == DemoFonts(DemoUser.id, now, dayBefore)
  {
    DemoUserIsDemo();
  }

  /** The two expandable panels of the cards: the font whose pairing list is
      open and the font whose embed panel is open. */
  datatype Panels = Panels(pairing: Option<string>, embed: Option<string>)

  /** At most one panel is open on the whole page. */
  predicate Exclusive(p: Panels)
  {
    p.pairing.None? || p.embed.None?
  }

  /** The pairings button: opens that font's list, or closes it when it is
      the one open, and closes any embed panel. */
  function TogglePairingStep(p: Panels, id: string): Panels
  {
    Panels(if p.pairing == Some(id) then None else Some(id), None)
  }

  /** The embed button, the mirror image. */
  function ToggleEmbedStep(p: Panels, id: string): Panels
  {
    Panels(None, if p.embed == Some(id) then None else Some(id))
  }

  /** Either button leaves at most one panel open, from any state, and
      flips the clicked panel of the clicked font. */
  lemma TogglesKeepPanelsExclusive(p: Panels, id: string)
    ensures Exclusive(TogglePairingStep(p, id)) && Exclusive(ToggleEmbedStep(p, id))
    ensures TogglePairingStep(p, id).pairing == Some(id) <==> p.pairing != Some(id)
    ensures ToggleEmbedStep(p, id).embed == Some(id) <==> p.embed != Some(id)
  {
  }

  /** Clicking the same button twice returns to a state with nothing open
      when it started with that panel closed, and with that panel open
      (and the other closed) when it was open. */
  lemma ToggleTwice(p: Panels, id: string)
    ensures TogglePairingStep(TogglePairingStep(p, id), id) == Panels(p.pairing, None) <==> p.pairing.None? || p.pairing == Some(id)
    ensures ToggleEmbedStep(ToggleEmbedStep(p, id), id) == Panels(None, p.embed) <==> p.embed.None? || p.embed == Some(id)
  {
  }

  /** Clicking one font's pairings and then its embed button leaves exactly
      that font's embed panel open, whatever was open before. */
  lemma PairingThenEmbed(p: Panels, id: string)
    ensures ToggleEmbedStep(TogglePairingStep(p, id), id) == Panels(None, Some(id))
  {
  }

  class DashboardPage {
    var fonts: seq<Font>
    var loading: bool
    var activeEmbedId: Option<string>
    var activePairingId: Option<string>
    const env: Env

    function Open(): Panels
      reads this
    {
      Panels(activePairingId, activeEmbedId)
    }

    constructor (env: Env)
      ensures fonts == [] && loading && Open() == Panels(None, None) && this.env == env
    {
      fonts := [];
      loading := true;
      activeEmbedId := None;
      activePairingId := None;
      this.env := env;
    }

    /** The mount effect: resolve whom to list for, then fill the library.
        `userOk` says whether the `getUser()` round trip succeeds, `now` and
        `dayBefore` are the two clock readings the fixed records carry, and
        `reachable` says whether the table query succeeds. */
    method FetchFonts(userOk: bool, reachable: bool, now: string, dayBefore: string)
      modifies this`fonts, this`loading, env`trace
      ensures !loading
      ensures var c := CallerOf(GetUser(env.session, userOk), env.marker);
        && fonts == Fetched(c, env.fonts, reachable, now, dayBefore, old(fonts))
        && env.trace == old(env.trace) + if Queries(c) then [FontsQueried(c.value.Id())] else []
      ensures Open() == old(Open())
    {
      var caller: Option<Caller> := None;
      var reported := GetUser(env.session, userOk);
      if reported.Some? {
        caller := Some(AuthCaller(reported.value));
      } else if Truthy(env.marker) {
        var decoded := Parse(env.marker.value);
        if decoded.Some? {
          caller := Some(DemoCaller(decoded.value));
        }
      }
      if caller.Some? {
        if IsDemoEmail(caller.value.Email()) {
          fonts := DemoFonts(caller.value.Id(), now, dayBefore);
          loading := false;
          return;
        }
        var rows := env.QueryFonts(caller.value.Id(), reachable);
        if rows.Some? {
          fonts := rows.value;
        }
      }
      loading := false;
    }

    /** The pairings button of the card for font `id`. */
    method TogglePairing(id: string)
      modifies this`activePairingId, this`activeEmbedId
      ensures Open() == TogglePairingStep(old(Open()), id)
      ensures Exclusive(Open())
    {
      activePairingId := if activePairingId == Some(id) then None else Some(id);
      activeEmbedId := None;
    }

    /** The embed button of the card for font `id`. */
    method ToggleEmbed(id: string)
      modifies this`activePairingId, this`activeEmbedId
      ensures Open() == ToggleEmbedStep(old(Open()), id)
      ensures Exclusive(Open())
    {
      activeEmbedId := if activeEmbedId == Some(id) then None else Some(id);
      activePairingId := None;
    }
  }
}

=== FILE: generate.dfy ===
/** The generator page: the credit figure it shows, the reference-image and
    preview guards, and the export that spends credits to turn a preview
    into a stored font. */
module Generate {
  import opened Types
  import opened Text
  import opened Platform

  /** Credits one export costs. */
  const Cost: int := 5

  /** Largest accepted reference image, in bytes (5 MiB). */
  const MaxImageBytes: nat := 5 * 1024 * 1024

  const InsufficientMessage: string := "Insufficient credits. You need 5 credits to export."
  const TooLargeMessage: string := "Image size too large. Please upload an image under 5MB."
  const PreviewFailedMessage: string := "Failed to generate preview. Please try again."
  const NotAuthenticatedMessage: string := "Not authenticated"
  const ExportFailedMessage: string := "Export failed. Please try again."
  /** Stand-in for the engine's text when the stored marker does not parse. */
  const ParseErrorMessage: string := "Unexpected token in JSON"

  /** `s || fallback` on text: the empty string is replaced. */
  function OrDefault(s: string, fallback: string): (r: string)
    ensures s != "" ==> r == s
    ensures s == "" ==> r == fallback
    ensures fallback != "" ==> r != ""
  {
    if s == "" then fallback else s
  }

  /** The reason passed to the deduct procedure. */
  function ExportReason(fontName: string): string
  {
    "Export Font: " + OrDefault(fontName, "Untitled")
  }

  /** The stored family name: the entered name, or "Custom Font". */
  function StyleName(fontName: string): (r: string)
    ensures r != ""
    ensures fontName != "" ==> r == fontName
    ensures fontName == "" ==> r == "Custom Font"
  {
    OrDefault(fontName, "Custom Font")
  }

  const MockPrefix: string := "https://cdn.typecraft.ai/mock/"

  /** The placeholder download location, stamped with the millisecond clock. */
  function MockWoff2Url(millis: nat): string
  {
    MockPrefix + DecimalDigits(millis) + ".woff2"
  }

  /** Exports at different clock readings get different download locations. */
  lemma MockUrlsDistinct(m: nat, n: nat)
    requires m != n
    ensures MockWoff2Url(m) != MockWoff2Url(n)
  {
    if MockWoff2Url(m) == MockWoff2Url(n) {
      var a, b := DecimalDigits(m), DecimalDigits(n);
      assert |a| == |b| by {
        assert |MockWoff2Url(m)| == |MockPrefix| + |a| + 6;
        assert |MockWoff2Url(n)| == |MockPrefix| + |b| + 6;
      }
      assert a == MockWoff2Url(m)[|MockPrefix|..|MockPrefix| + |a|];
      assert b == MockWoff2Url(n)[|MockPrefix|..|MockPrefix| + |b|];
      DecimalInjective(m, n);
    }
  }

  /** What the remote side answers during one export, and the values it
      generates (ids and clock readings). */
  datatype ExportReplies = ExportReplies(
    deduct: Reply, insert: Reply, txId: string, fontId: string, now: string, millis: nat)

  /** The font record an export inserts. */
  function ExportRow(r: ExportReplies, ownerId: string, fontName: string, prompt: string, previewUrl: Option<string>): Font
  {
    Font(r.fontId, ownerId, StyleName(fontName), prompt, Ready, previewUrl,
         None, None, Some(MockWoff2Url(r.millis)), r.now)
  }

  /** The demo debit: the stored record with five fewer credits. */
  function DemoDebit(u: User): User
  {
    u.(credits := u.credits - Cost)
  }

  /** The corrected credit figure for a demo caller: a decoded demo record
      shows its own balance as stored; an account from the auth provider has
      no credits field and shows the default 100. */
  function ShownCredits(c: Caller): (n: int)
    ensures c.DemoCaller? ==> n == c.user.credits
    ensures c.AuthCaller? ==> n == 100
  {
    match c
    case AuthCaller(_) => 100
    case DemoCaller(u) => u.credits
  }

  /** The same figure as the page computes it, `user.credits || 100`: a
      balance of 0 is taken as missing and shown as 100. */
  function ShownCreditsAsWritten(c: Caller): (n: int)
    ensures c.DemoCaller? && c.user.credits != 0 ==> n == c.user.credits
    ensures c.DemoCaller? && c.user.credits == 0 ==> n == 100
    ensures c.AuthCaller? ==> n == 100
  {
    match c
    case AuthCaller(_) => 100
    case DemoCaller(u) => if u.credits != 0 then u.credits else 100
  }

  /** One visit to the generator page by a demo user followed by an export
      click: the page shows a credit figure, and the export debits the
      stored record when that figure covers the cost. */
  function Visit(u: User, asWritten: bool): User
  {
    var shown := if asWritten then ShownCreditsAsWritten(DemoCaller(u)) else ShownCredits(DemoCaller(u));
    if shown < Cost then u else DemoDebit(u)
  }

  function Visits(u: User, n: nat, asWritten: bool): User
  {
    if n == 0 then u else Visit(Visits(u, n - 1, asWritten), asWritten)
  }

  /** While the balance covers every visit, each visit takes exactly the
      cost, under either display rule. */
  lemma {:induction false} VisitsWhileFunded(u: User, n: nat, asWritten: bool)
    requires u.credits >= Cost * n
    ensures Visits(u, n, asWritten) == u.(credits := u.credits - Cost * n)
  {
    if n > 0 {
      VisitsWhileFunded(u, n - 1, asWritten);
    }
  }

  /** As written: the demo user's 100 credits are spent by twenty exports,
      the twenty-first visit shows 100 again, and its export leaves -5. */
  lemma AsWrittenDemoBalanceGoesNegative()
    ensures Visits(DemoUser, 20, true).credits == 0
    ensures Visits(DemoUser, 21, true).credits == -5
  {
    VisitsWhileFunded(DemoUser, 20, true);
  }

  /** With the balance shown as stored, no number of visits takes a
      non-negative demo balance below zero, and a balance that cannot pay
      is left alone. */
  lemma {:induction false} DemoBalanceStaysNonNegative(u: User, n: nat)
    requires u.credits >= 0
    ensures Visits(u, n, false).credits >= 0
    ensures Visits(u, n, false).id == u.id && Visits(u, n, false).email == u.email
    ensures u.credits < Cost ==> Visits(u, n, false) == u
  {
    if n > 0 {
      DemoBalanceStaysNonNegative(u, n - 1);
    }
  }

  /** The preview guard: a prompt or a reference image is needed. */
  predicate CanPreview(prompt: string, referenceImage: Option<string>)
  {
    prompt != "" || (referenceImage.Some? && referenceImage.value != "")
  }

  /** The export button is enabled with a preview, no export running and
      enough credits shown. */
  predicate ExportEnabled(previewUrl: Option<string>, isExporting: bool, credits: int)
  {
    previewUrl.Some? && previewUrl.value != "" && !isExporting && credits >= Cost
  }


  /** A picked reference-image file: its size and its contents as a data URL. */
  datatype ImageFile = ImageFile(size: nat, dataUrl: string)

  /** How an export attempt ended. */
  datatype ExportOutcome =
    | Blocked
    | DemoCharged
    | ParseFailed
    | NotAuthenticated
    | DeductFailed
    | InsertFailed
    | Exported
  /** The export-relevant page state: the figure, the error line and the
      busy flag. */
  datatype PageState = PageState(credits: int, error: Option<string>, isExporting: bool)

  /** What the form holds when export is clicked. */
  datatype ExportForm = ExportForm(fontName: string, prompt: string, previewUrl: Option<string>)

  datatype ExportResult = ExportResult(outcome: ExportOutcome, page: PageState, store: Store)

  /** One export attempt, given the session user `getUser()` reports. */
  function ExportStep(session: Option<Account>, form: ExportForm, page: PageState, st: Store, r: ExportReplies): ExportResult
  {
    if page.credits < Cost then
      ExportResult(Blocked, page.(error := Some(InsufficientMessage)), st)
    else if session.None? then
      if Truthy(st.marker) then
        match Parse(st.marker.value)
        case None =>
          ExportResult(ParseFailed, PageState(page.credits, Some(ParseErrorMessage), false), st)
        case Some(u) =>
          var d := DemoDebit(u);
          ExportResult(DemoCharged, PageState(d.credits, None, false),
            st.(marker := Some(Record(d)), trace := st.trace + [MarkerWritten(d), Navigated("/dashboard")]))
      else
        ExportResult(NotAuthenticated, PageState(page.credits, Some(NotAuthenticatedMessage), false), st)
    else
      var uid := session.value.id;
      var called := st.trace + [DeductCalled(Cost, ExportReason(form.fontName))];
      if !DeductAccepted(st.users, uid, Cost, r.deduct) then
        ExportResult(DeductFailed,
          PageState(page.credits, Some(OrDefault(DeductRefusal(r.deduct), ExportFailedMessage)), false),
          st.(trace := called))
      else
        var row := ExportRow(r, uid, form.fontName, form.prompt, form.previewUrl);
        var debited := st.(users := Debit(st.users, uid, Cost),
                           transactions := st.transactions + [Transaction(r.txId, uid, Cost, Export, r.now)],
                           trace := called + [FontInsertCalled(row)]);
        if r.insert.Rejected? then
          ExportResult(InsertFailed,
            PageState(page.credits, Some(OrDefault(r.insert.message, ExportFailedMessage)), false), debited)
        else
          ExportResult(Exported, PageState(page.credits, None, false),
            debited.(fonts := st.fonts + [row], trace := debited.trace + [Navigated("/dashboard")]))
  }

  /** A figure under the cost refuses with the insufficient-credits message
      and changes nothing else; any other attempt ends with the busy flag
      cleared. */
  lemma ExportGuard(session: Option<Account>, form: ExportForm, page: PageState, st: Store, r: ExportReplies)
    ensures var res := ExportStep(session, form, page, st, r);
      && (res.outcome == Blocked <==> page.credits < Cost)
      && (res.outcome == Blocked ==>
            res.store == st && res.page == page.(error := Some(InsufficientMessage)))
      && (res.outcome != Blocked ==> !res.page.isExporting)
  {
  }

  /** The export button is enabled only when the guard lets the attempt
      through: an enabled click is never refused for credits. */
  lemma EnabledExportNotBlocked(session: Option<Account>, form: ExportForm, page: PageState, st: Store, r: ExportReplies)
    ensures ExportEnabled(form.previewUrl, page.isExporting, page.credits) ==>
      ExportStep(session, form, page, st, r).outcome != Blocked
  {
  }

  /** One demo visit of `Visit` is what the page does: a figure loaded by
      the display rule, then an export without a session, leaves the stored
      record `Visit` computes. */
  lemma DemoVisitMatchesPage(u: User, asWritten: bool, form: ExportForm, err: Option<string>, busy: bool, st: Store, r: ExportReplies)
    ensures var shown := if asWritten then ShownCreditsAsWritten(DemoCaller(u)) else ShownCredits(DemoCaller(u));
      ExportStep(None, form, PageState(shown, err, busy), st.(marker := Some(Record(u))), r).store.marker
        == Some(Record(Visit(u, asWritten)))
  {
  }

  /** Without a session the attempt stays local: no table, ledger, deduct or
      insert is touched, and a demo charge rewrites only the stored record's
      balance, lowering it by the cost. */
  lemma ExportWithoutSessionIsLocal(form: ExportForm, page: PageState, st: Store, r: ExportReplies)
    requires page.credits >= Cost
    ensures var res := ExportStep(None, form, page, st, r);
      && res.outcome in {DemoCharged, ParseFailed, NotAuthenticated}
      && res.store.users == st.users && res.store.fonts == st.fonts
      && res.store.transactions == st.transactions
      && (forall e | e in res.store.trace[|st.trace|..] :: !e.DeductCalled? && !e.FontInsertCalled?)
      && (res.outcome == DemoCharged <==> st.marker.Some? && st.marker.value.Record?)
      && (res.outcome == DemoCharged ==>
            var u := st.marker.value.user;
            && res.store.marker == Some(Record(User(u.id, u.email, u.credits - Cost)))
            && res.page.credits == u.credits - Cost)
      && (res.outcome != DemoCharged ==> res.store == st && res.page.error.Some?)
      && (res.outcome == NotAuthenticated <==> !Truthy(st.marker))
  {
  }

  /** A session user takes precedence over a stored marker: the marker is
      left as it is and the remote path runs. */
  lemma ExportSessionFirst(a: Account, form: ExportForm, page: PageState, st: Store, r: ExportReplies)
    requires page.credits >= Cost
    ensures var res := ExportStep(Some(a), form, page, st, r);
      && res.outcome in {DeductFailed, InsertFailed, Exported}
      && res.store.marker == st.marker && res.page.credits == page.credits
      && |res.store.trace| > |st.trace|
      && res.store.trace[|st.trace|] == DeductCalled(Cost, ExportReason(form.fontName))
  {
  }

  /** A refused deduct stops the attempt before the insert: no font row, no
      ledger entry, no balance change, only the refused call. */
  lemma DeductFailureWritesNothing(a: Account, form: ExportForm, page: PageState, st: Store, r: ExportReplies)
    requires page.credits >= Cost && !DeductAccepted(st.users, a.id, Cost, r.deduct)
    ensures var res := ExportStep(Some(a), form, page, st, r);
      && res.outcome == DeductFailed
      && res.store == st.(trace := st.trace + [DeductCalled(Cost, ExportReason(form.fontName))])
      && res.page.error.Some? && res.page.error.value != ""
  {
  }

  /** A font row appears only together with a committed charge of the cost
      for the same owner in the same attempt, and it is a ready record of
      that owner with the entered name or "Custom Font". */
  lemma ReadyRowOnlyAfterDebit(session: Option<Account>, form: ExportForm, page: PageState, st: Store, r: ExportReplies)
    requires UsersWellFormed(st.users)
    ensures var res := ExportStep(session, form, page, st, r);
      res.store.fonts != st.fonts ==>
        && res.outcome == Exported && session.Some?
        && var uid := session.value.id;
        && |res.store.fonts| == |st.fonts| + 1 && res.store.fonts[..|st.fonts|] == st.fonts
        && var row := res.store.fonts[|st.fonts|];
        && row.user_id == uid && row.status == Ready && row.style_name == StyleName(form.fontName)
        && uid in st.users && res.store.users[uid].credits == st.users[uid].credits - Cost
        && res.store.transactions == st.transactions + [Transaction(r.txId, uid, Cost, Export, r.now)]
  {
  }

  /** The converse: with enough credits shown, a deduct the server commits
      and an accepted insert, the attempt succeeds. It stores exactly one
      new ready row of the account's, debits the account by the cost with
      one ledger entry, clears the error and navigates to the library. */
  lemma ExportSucceeds(a: Account, form: ExportForm, page: PageState, st: Store, r: ExportReplies)
    requires page.credits >= Cost && DeductAccepted(st.users, a.id, Cost, r.deduct) && r.insert.Accepted?
    ensures var res := ExportStep(Some(a), form, page, st, r);
      var row := ExportRow(r, a.id, form.fontName, form.prompt, form.previewUrl);
      && res.outcome == Exported
      && res.store.fonts == st.fonts + [row]
      && row.user_id == a.id && row.status == Ready && row.style_name == StyleName(form.fontName)
      && res.store.users[a.id].credits == st.users[a.id].credits - Cost
      && res.store.transactions == st.transactions + [Transaction(r.txId, a.id, Cost, Export, r.now)]
      && res.store.marker == st.marker
      && res.page == PageState(page.credits, None, false)
      && res.store.trace == st.trace + [DeductCalled(Cost, ExportReason(form.fontName)), FontInsertCalled(row), Navigated("/dashboard")]
  {
  }

  /** A refused insert after a committed deduct refunds nothing: the charge
      and its ledger entry stand, no font row is written, and the page only
      shows an error. */
  lemma InsertFailureKeepsCharge(a: Account, form: ExportForm, page: PageState, st: Store, r: ExportReplies)
    requires UsersWellFormed(st.users)
    requires page.credits >= Cost && DeductAccepted(st.users, a.id, Cost, r.deduct) && r.insert.Rejected?
    ensures var res := ExportStep(Some(a), form, page, st, r);
      && res.outcome == InsertFailed
      && res.store.fonts == st.fonts
      && res.store.users[a.id].credits == st.users[a.id].credits - Cost
      && Spent(res.store.transactions, a.id) == Spent(st.transactions, a.id) + Cost
      && res.page.error.Some?
  {
    SpentAppend(st.transactions, Transaction(r.txId, a.id, Cost, Export, r.now), a.id);
  }

  /** Every export attempt keeps each owner's balance plus recorded export
      charges constant, and keeps every balance non-negative. */
  lemma ExportConservesCredits(session: Option<Account>, form: ExportForm, page: PageState, st: Store, r: ExportReplies, k: string)
    requires UsersWellFormed(st.users) && k in st.users
    ensures var res := ExportStep(session, form, page, st, r);
      && UsersWellFormed(res.store.users)
      && k in res.store.users
      && res.store.users[k].credits + Spent(res.store.transactions, k)
         == st.users[k].credits + Spent(st.transactions, k)
  {
    var res := ExportStep(session, form, page, st, r);
    if res.store.transactions != st.transactions {
      var t := Transaction(r.txId, session.value.id, Cost, Export, r.now);
      SpentAppend(st.transactions, t, k);
      DebitFacts(st.users, session.value.id, Cost, r.deduct);
    }
  }

  /** Two exports by an account holding 100 credits leave 95 and then 90. */
  lemma TwoExportsFromHundred(a: Account, form: ExportForm, r1: ExportReplies, r2: ExportReplies, st: Store)
    requires st.users == map[a.id := User(a.id, a.email, 100)]
    requires r1.deduct.Accepted? && r1.insert.Accepted? && r2.deduct.Accepted? && r2.insert.Accepted?
    ensures var first := ExportStep(Some(a), form, PageState(100, None, false), st, r1);
      && first.outcome == Exported && first.store.users[a.id].credits == 95
      && var second := ExportStep(Some(a), form, first.page, first.store, r2);
      && second.outcome == Exported && second.store.users[a.id].credits == 90
      && |second.store.fonts| == |st.fonts| + 2
  {
  }

  /** An account holding 3 credits shown as 3 is refused and keeps 3. */
  lemma ShortAccountRefused(a: Account, form: ExportForm, r: ExportReplies, st: Store)
    requires st.users == map[a.id := User(a.id, a.email, 3)]
    ensures var res := ExportStep(Some(a), form, PageState(3, None, false), st, r);
      && res.outcome == Blocked && res.store.users[a.id].credits == 3
      && res.store.fonts == st.fonts
  {
  }

  class GeneratePage {
    var prompt: string
    var fontName: string
    var referenceImage: Option<string>
    var previewUrl: Option<string>
    var isGenerating: bool
    var isExporting: bool
    var error: Option<string>
    /** The credit figure the page shows and guards the export with. */
    var credits: int
    const env: Env

    constructor (env: Env)
      ensures prompt == "" && fontName == "" && referenceImage == None && previewUrl == None
      ensures !isGenerating && !isExporting && error == None && credits == 0
      ensures this.env == env
    {
      prompt, fontName := "", "";
      referenceImage, previewUrl := None, None;
      isGenerating, isExporting := false, false;
      error := None;
      credits := 0;
      this.env := env;
    }

    /** The mount effect that loads the credit figure; `userOk` says whether
        the `getUser()` round trip succeeds. A demo-looking caller is shown
        `user.credits || 100` without any query; anyone else gets the balance
        from the users table when a row comes back, and otherwise the figure
        stays. With nobody to act for, nothing happens. */
    method CheckCredits(userOk: bool, reachable: bool)
      modifies this`credits, env`trace
      ensures var c := CallerOf(GetUser(env.session, userOk), env.marker);
        && (c.None? ==> credits == old(credits) && env.trace == old(env.trace))
        && (c.Some? && IsDemoEmail(c.value.Email()) ==>
              credits == ShownCreditsAsWritten(c.value) && env.trace == old(env.trace))
        && (c.Some? && !IsDemoEmail(c.value.Email()) ==>
              && env.trace == old(env.trace) + [UserRowQueried(c.value.Id())]
              && credits == (var row := Lookup(env.users, c.value.Id(), reachable);
                             if row.Some? then row.value.credits else old(credits)))
    {
      var c := CallerOf(GetUser(env.session, userOk), env.marker);
      if c.Some? {
        if IsDemoEmail(c.value.Email()) {
          credits := ShownCreditsAsWritten(c.value);
          return;
        }
        var row := env.QueryUserRow(c.value.Id(), reachable);
        if row.Some? {
          credits := row.value.credits;
        }
      }
    }

    /** A file picked as reference image: nothing picked changes nothing; a
        file over 5 MiB only sets the size error; any other file becomes the
        reference image. */
    method HandleFileChange(file: Option<ImageFile>)
      modifies this`error, this`referenceImage
      ensures file.None? ==> error == old(error) && referenceImage == old(referenceImage)
      ensures file.Some? && file.value.size > MaxImageBytes ==>
        error == Some(TooLargeMessage) && referenceImage == old(referenceImage)
      ensures file.Some? && file.value.size <= MaxImageBytes ==>
        error == old(error) && referenceImage == Some(file.value.dataUrl)
    {
      if file.None? {
        return;
      }
      if file.value.size > MaxImageBytes {
        error := Some(TooLargeMessage);
        return;
      }
      referenceImage := Some(file.value.dataUrl);
    }

    /** Ask the external generator for a specimen. `generated` is its answer,
        `None` when it failed. Without a prompt or an image nothing happens. */
    method HandlePreview(generated: Option<string>)
      modifies this`isGenerating, this`error, this`previewUrl
      ensures !CanPreview(prompt, referenceImage) ==>
        isGenerating == old(isGenerating) && error == old(error) && previewUrl == old(previewUrl)
      ensures CanPreview(prompt, referenceImage) ==>
        && !isGenerating
        && previewUrl == generated
        && error == (if generated.None? then Some(PreviewFailedMessage) else None)
    {
      if !CanPreview(prompt, referenceImage) {
        return;
      }
      isGenerating := true;
      error := None;
      previewUrl := None;
      if generated.Some? {
        previewUrl := generated;
      } else {
        error := Some(PreviewFailedMessage);
      }
      isGenerating := false;
    }

    function Page(): PageState
      reads this
    {
      PageState(credits, error, isExporting)
    }

    function Form(): ExportForm
      reads this
    {
      ExportForm(fontName, prompt, previewUrl)
    }

    /** The export click, as `ExportStep` describes it: a shown figure under
        the cost refuses; a signed-in user is charged remotely and then a
        ready record is inserted; without a session a stored demo record is
        charged locally. */
    method HandleExport(userOk: bool, replies: ExportReplies) returns (outcome: ExportOutcome)
      requires env.Valid()
      modifies this`credits, this`error, this`isExporting
      modifies env`marker, env`users, env`fonts, env`transactions, env`trace
      ensures env.Valid()
      ensures ExportResult(outcome, Page(), env.State())
        == ExportStep(GetUser(env.session, userOk), Form(), old(Page()), old(env.State()), replies)
    {
      if credits < Cost {
        error := Some(InsufficientMessage);
        return Blocked;
      }
      isExporting := true;
      error := None;

      var reported := GetUser(env.session, userOk);
      if reported.None? {
        if Truthy(env.marker) {
          match Parse(env.marker.value)
          case None =>
            error := Some(ParseErrorMessage);
            outcome := ParseFailed;
          case Some(u) =>
            var updated := DemoDebit(u);
            env.WriteMarker(updated);
            credits := updated.credits;
            env.Navigate("/dashboard");
            outcome := DemoCharged;
        } else {
          error := Some(NotAuthenticatedMessage);
          outcome := NotAuthenticated;
        }
        isExporting := false;
        return;
      }

      var user := reported.value;
      var deductErr := env.DeductCredits(user.id, Cost, ExportReason(fontName), replies.deduct, replies.txId, replies.now);
      if deductErr.Some? {
        error := Some(OrDefault(deductErr.value, ExportFailedMessage));
        isExporting := false;
        return DeductFailed;
      }
      var row := ExportRow(replies, user.id, fontName, prompt, previewUrl);
      var insertErr := env.InsertFont(row, replies.insert);
      if insertErr.Some? {
        error := Some(OrDefault(insertErr.value, ExportFailedMessage));
        isExporting := false;
        return InsertFailed;
      }
      env.Navigate("/dashboard");
      isExporting := false;
      outcome := Exported;
    }
  }
}

=== FILE: layout.dfy ===
/** The page frame: which paths are public, what the frame renders for a
    visitor without a user, which navigation entry is highlighted, the
    credits shown in the sidebar, and the sign-out sequence. */
module Layout {
  import opened Types
  import opened Text
  import opened Platform
  import Session

  /** Paths served without a signed-in user: four exact paths and every
      path under `/auth`. */
  predicate IsPublic(path: string)
  {
    path == "/" || StartsWith(path, "/auth") || path == "/terms" || path == "/privacy" || path == "/guide"
  }

  /** `isActive(p)`: the current path is exactly `p`. */
  predicate IsActive(pathname: string, p: string)
  {
    pathname == p
  }

  /** The entries of the navigation list, in order. */
  const NavPaths: seq<string> := ["/dashboard", "/generate", "/guide"]

  /** What the frame renders: the loading placeholder, the children alone,
      or the children inside the sidebar shell with a credits figure. */
  datatype Frame = Placeholder | Bare | Shell(credits: int)

  /** `user?.credits || 0` */
  function CreditsShown(user: Option<User>): (c: int)
    ensures user.None? ==> c == 0
    ensures user.Some? ==> c == user.value.credits
  {
    if user.Some? && user.value.credits != 0 then user.value.credits else 0
  }

  function Guard(user: Option<User>, path: string): (f: Frame)
    ensures f == Placeholder <==> user.None? && !IsPublic(path)
    ensures f == Bare <==> IsPublic(path)
    ensures f.Shell? ==> user.Some? && f.credits == user.value.credits
  {
    if user.None? && !IsPublic(path) then Placeholder
    else if IsPublic(path) then Bare
    else Shell(CreditsShown(user))
  }

  /** Whether the frame renders its children at all. */
  predicate ShowsChildren(f: Frame)
  {
    f != Placeholder
  }

  /** Everything under `/auth` is public, and so is each of the four
      exact paths. */
  lemma PublicPaths(rest: string)
    ensures IsPublic("/auth" + rest)
    ensures IsPublic("/") && IsPublic("/terms") && IsPublic("/privacy") && IsPublic("/guide")
  {
  }

  /** Each path the route table protects is outside the public set. */
  lemma ProtectedNotPublic(path: string)
    requires path in Session.Protected
    ensures !IsPublic(path)
  {
    assert path[1] != "/auth"[1];
  }

  /** The frame hides its children exactly for a visitor with no user on a
      non-public path, and a public path is always rendered without the
      shell, signed in or not. */
  lemma GuardHidesOnlyPrivate(user: Option<User>, path: string)
    ensures ShowsChildren(Guard(user, path)) <==> user.Some? || IsPublic(path)
    ensures IsPublic(path) ==> Guard(user, path) == Guard(None, path) == Bare
  {
  }

  /** As written, the frame tests the path exactly while the router ignores
      a trailing slash: at `/guide/` a visitor with no user is routed to the
      guide, but the frame shows only the placeholder. */
  lemma SlashedGuideHidden()
    ensures Session.Route("/guide/", false) == Session.Show(Session.Guide)
    ensures Guard(None, "/guide/") == Placeholder
  {
    assert "/guide/"[..6] == "/guide";
    assert TrimSlashes("/guide") == "/guide";
    RoutePathFixed("/guide");
  }

  /** With the public test applied to the path as the router reads it, every
      page the route table shows a visitor without a user is one the frame
      lets through. */
  lemma VisitorPagesPassGuard(path: string)
    ensures Session.Route(path, false).Show? ==> ShowsChildren(Guard(None, RoutePath(path)))
  {
  }

  /** A public path, read as the router reads it, is one of the four exact
      public paths or starts with `/a`. */
  lemma PublicRoutePath(path: string)
    requires IsPublic(path)
    ensures var p := RoutePath(path);
      p in {"/", "/terms", "/privacy", "/guide"} || (|p| > 1 && p[1] == 'a')
  {
    if StartsWith(path, "/auth") {
      TrimKeepsNonSlash(path, 4);
      assert TrimSlashes(path)[1] == path[1] == 'a';
    } else if path == "/" {
      RoutePathFixed("/");
    } else if path == "/terms" {
      RoutePathFixed("/terms");
    } else if path == "/privacy" {
      RoutePathFixed("/privacy");
    } else {
      RoutePathFixed("/guide");
    }
  }

  /** For a visitor with no user, every redirect the route table would issue
      to `/auth` sits inside a frame that renders only the placeholder, so
      that redirect element is never mounted. */
  lemma RedirectToSignInNotRendered(path: string)
    requires Session.Route(path, false) == Session.Redirect("/auth")
    ensures Guard(None, path) == Placeholder
  {
    if IsPublic(path) {
      PublicRoutePath(path);
    }
  }

  /** At most one navigation entry is highlighted. */
  lemma AtMostOneActive(pathname: string, i: nat, j: nat)
    requires i < j < |NavPaths|
    ensures !(IsActive(pathname, NavPaths[i]) && IsActive(pathname, NavPaths[j]))
  {
  }

  /** The pages behind the navigation entries, in the same order. */
  const NavPages: seq<Session.Page> := [Session.Library, Session.Generator, Session.Guide]

  /** A highlighted entry is the page the router shows a signed-in user at
      that path. */
  lemma ActiveEntryIsShownPage(pathname: string, i: nat)
    requires i < |NavPaths| && IsActive(pathname, NavPaths[i])
    ensures Session.Route(pathname, true) == Session.Show(NavPages[i])
  {
    RoutePathFixed(NavPaths[i]);
  }

  /** Sign-out: the shell's logout handler when one is passed (marker
      removed, user cleared, remote sign-out started), then the frame's own
      remote sign-out, then navigation to `/`. */
  method HandleSignOut(app: Session.App?, env: Env)
    requires app != null ==> app.env == env
    modifies app, env`marker, env`session, env`trace
    ensures env.session == None
    ensures app != null ==> app.user == None && env.marker == None
    ensures app != null ==> app.isLoading == old(app.isLoading) && app.subscribed == old(app.subscribed)
    ensures app == null ==> env.marker == old(env.marker)
    ensures env.trace == old(env.trace)
      + (if app != null then [MarkerRemoved, SignOutCalled] else [])
      + [SignOutCalled, Navigated("/")]
  {
    if app != null {
      app.HandleLogout();
    }
    env.SignOut();
    env.Navigate("/");
  }
}

=== FILE: platform.dfy ===
/** What the pages talk to: the browser's local storage (one demo-user key),
    the remote auth session, the users and fonts tables, the server-side
    `deduct_credits` procedure with its transaction ledger, and the router.
    The deduct procedure and the font insert take a `Reply`; table queries
    and `getUser()` take a success flag. Every storage write, table query,
    deduct and insert call, sign-out and navigation is appended to `trace`
    in order. */
module Platform {
  import opened Types
  import opened Text

  /** Answer of a remote call: what the network or the server decided. */
  datatype Reply = Accepted | Rejected(message: string)

  /** Observable effects, in the order they happen. */
  datatype Effect =
    | MarkerWritten(user: User)
    | MarkerRemoved
    | SignOutCalled
    | UserRowQueried(id: string)
    | FontsQueried(ownerId: string)
    | DeductCalled(cost: int, reason: string)
    | FontInsertCalled(row: Font)
    | Navigated(path: string)

  /** `email.includes('demo')`: how the pages recognise a demo user. */
  predicate IsDemoEmail(email: string)
  {
    Contains(email, "demo")
  }

  /** The fixed demo account passes that test. */
  lemma DemoUserIsDemo()
    ensures IsDemoEmail(DemoUser.email)
  {
  }

  /** Whom a page acts for: the session user from `getUser()`, or else the
      user decoded from a stored marker. A marker that does not parse (or
      the empty text) yields nobody. */
  function CallerOf(session: Option<Account>, marker: Option<Marker>): (c: Option<Caller>)
    ensures session.Some? ==> c == Some(AuthCaller(session.value))
    ensures session.None? ==> (c.Some? <==> Truthy(marker) && marker.value.Record?)
    ensures c.Some? && session.None? ==> c.value == DemoCaller(marker.value.user)
  {
    if session.Some? then Some(AuthCaller(session.value))
    else if Truthy(marker) && Parse(marker.value).Some? then Some(DemoCaller(Parse(marker.value).value))
    else None
  }

  /** What `getUser()` reports: the session's account when the round trip
      succeeds (`ok`), and no user when it fails. */
  function GetUser(session: Option<Account>, ok: bool): (r: Option<Account>)
    ensures r.Some? <==> ok && session.Some?
    ensures r.Some? ==> r == session
  {
    if ok then session else None
  }

  /** The message of the procedure's own refusal when the balance is short. */
  const InsufficientReply: string := "Insufficient credits"

  /** `select * from users where id = ... single()`: the row, or nothing when
      no row matches or the query fails. */
  function Lookup(users: map<string, User>, id: string, reachable: bool): (r: Option<User>)
    ensures r.Some? <==> reachable && id in users
    ensures r.Some? ==> r.value == users[id]
  {
    if reachable && id in users then Some(users[id]) else None
  }

  /** Whether the deduct procedure commits: reached, a row for the owner,
      and a balance that covers the cost. */
  predicate DeductAccepted(users: map<string, User>, uid: string, cost: int, reply: Reply)
  {
    reply.Accepted? && uid in users && cost <= users[uid].credits
  }

  /** The message of a deduct that did not commit. */
  function DeductRefusal(reply: Reply): string
  {
    if reply.Rejected? then reply.message else InsufficientReply
  }

  /** The users table after `cost` is taken from one owner's balance. */
  function Debit(users: map<string, User>, uid: string, cost: int): map<string, User>
    requires uid in users
  {
    users[uid := users[uid].(credits := users[uid].credits - cost)]
  }

  /** Rows are keyed by their own id and balances are never negative. */
  predicate UsersWellFormed(users: map<string, User>)
  {
    forall k | k in users :: users[k].id == k && users[k].credits >= 0
  }

  /** A committed debit keeps the table well formed and moves exactly `cost`
      from the owner's balance; nobody else's balance moves. */
  lemma DebitFacts(users: map<string, User>, uid: string, cost: int, reply: Reply)
    requires UsersWellFormed(users) && DeductAccepted(users, uid, cost, reply)
    ensures UsersWellFormed(Debit(users, uid, cost))
    ensures Debit(users, uid, cost).Keys == users.Keys
    ensures Debit(users, uid, cost)[uid].credits == users[uid].credits - cost
    ensures forall k | k in users && k != uid :: Debit(users, uid, cost)[k] == users[k]
  {
  }

  /** Everything in the environment that an operation can change. */
  datatype Store = Store(
    marker: Option<Marker>,
    users: map<string, User>,
    fonts: seq<Font>,
    transactions: seq<Transaction>,
    trace: seq<Effect>)

  /** The owner's charge recorded by one ledger entry. */
  function Charge(t: Transaction, uid: string): int
  {
    if t.user_id == uid && t.kind == Export then t.credits else 0
  }

  /** Total export charges recorded for `uid`. */
  function Spent(txs: seq<Transaction>, uid: string): int
  {
    if |txs| == 0 then 0 else Charge(txs[0], uid) + Spent(txs[1..], uid)
  }

  /** Appending an entry adds exactly its charge to the owner's total. */
  lemma {:induction false} SpentAppend(txs: seq<Transaction>, t: Transaction, uid: string)
    ensures Spent(txs + [t], uid) == Spent(txs, uid) + Charge(t, uid)
  {
    if |txs| > 0 {
      assert (txs + [t])[1..] == txs[1..] + [t];
      SpentAppend(txs[1..], t, uid);
    } else {
      assert (txs + [t])[1..] == [];
    }
  }

  /** Newest first: each row's `created_at` is not before its successor's. */
  predicate NewestFirst(s: seq<Font>)
  {
    forall i | 1 <= i < |s| :: LexLe(s[i].created_at, s[i - 1].created_at)
  }

  function InsertNewest(f: Font, s: seq<Font>): seq<Font>
  {
    if |s| == 0 then [f]
    else if LexLe(s[0].created_at, f.created_at) then [f] + s
    else [s[0]] + InsertNewest(f, s[1..])
  }

  function SortNewestFirst(s: seq<Font>): seq<Font>
  {
    if |s| == 0 then [] else InsertNewest(s[0], SortNewestFirst(s[1..]))
  }

  /** `where user_id = uid`: the rows of one owner, in table order. */
  function OwnedBy(rows: seq<Font>, uid: string): (r: seq<Font>)
    ensures forall f :: f in r <==> f in rows && f.user_id == uid
  {
    if |rows| == 0 then []
    else if rows[0].user_id == uid then [rows[0]] + OwnedBy(rows[1..], uid)
    else OwnedBy(rows[1..], uid)
  }

  /** `where user_id = uid order by created_at desc`. */
  function Listing(rows: seq<Font>, uid: string): seq<Font>
  {
    SortNewestFirst(OwnedBy(rows, uid))
  }

  /** A row not before the head of a newest-first list can lead it. */
  lemma ConsNewestFirst(x: Font, t: seq<Font>)
    requires NewestFirst(t)
    requires |t| > 0 ==> LexLe(t[0].created_at, x.created_at)
    ensures NewestFirst([x] + t)
  {
    var r := [x] + t;
    forall i | 1 <= i < |r| ensures LexLe(r[i].created_at, r[i - 1].created_at) {
      if i > 1 {
        assert r[i] == t[i - 1] && r[i - 1] == t[i - 2];
      }
    }
  }

  /** Dropping the head keeps a list newest first. */
  lemma TailNewestFirst(s: seq<Font>)
    requires |s| > 0 && NewestFirst(s)
    ensures NewestFirst(s[1..])
  {
    forall i | 1 <= i < |s[1..]| ensures LexLe(s[1..][i].created_at, s[1..][i - 1].created_at) {
      assert s[1..][i] == s[i + 1] && s[1..][i - 1] == s[i];
    }
  }

  /** Inserting a row adds exactly that row, and the result starts with
      the row or with the old head. */
  lemma {:induction false} InsertNewestKeeps(f: Font, s: seq<Font>)
    ensures multiset(InsertNewest(f, s)) == multiset(s) + multiset{f}
    ensures |InsertNewest(f, s)| > 0
    ensures InsertNewest(f, s)[0] == f || (|s| > 0 && InsertNewest(f, s)[0] == s[0])
  {
    if |s| > 0 && !LexLe(s[0].created_at, f.created_at) {
      InsertNewestKeeps(f, s[1..]);
      assert s == [s[0]] + s[1..];
    }
  }

  /** Inserting into a newest-first list keeps it newest first. */
  lemma {:induction false} InsertNewestSorted(f: Font, s: seq<Font>)
    requires NewestFirst(s)
    ensures NewestFirst(InsertNewest(f, s))
  {
    if |s| > 0 && !LexLe(s[0].created_at, f.created_at) {
      TailNewestFirst(s);
      InsertNewestSorted(f, s[1..]);
      InsertNewestKeeps(f, s[1..]);
      LexTotal(s[0].created_at, f.created_at);
      var rest := InsertNewest(f, s[1..]);
      assert LexLe(rest[0].created_at, s[0].created_at) by {
        if rest[0] != f {
          assert rest[0] == s[1];
        }
      }
      ConsNewestFirst(s[0], rest);
    } else if |s| > 0 {
      ConsNewestFirst(f, s);
    }
  }

  /** Sorting keeps exactly the rows it was given and puts them newest first. */
  lemma {:induction false} SortNewestFirstFacts(s: seq<Font>)
    ensures multiset(SortNewestFirst(s)) == multiset(s)
    ensures NewestFirst(SortNewestFirst(s))
  {
    if |s| > 0 {
      SortNewestFirstFacts(s[1..]);
      InsertNewestKeeps(s[0], SortNewestFirst(s[1..]));
      InsertNewestSorted(s[0], SortNewestFirst(s[1..]));
      assert s == [s[0]] + s[1..];
    }
  }

  /** The listing holds each of the owner's rows as often as the table does,
      nothing else, newest first. */
  lemma ListingFacts(rows: seq<Font>, uid: string)
    ensures multiset(Listing(rows, uid)) == multiset(OwnedBy(rows, uid))
    ensures forall f :: f in Listing(rows, uid) <==> f in rows && f.user_id == uid
    ensures NewestFirst(Listing(rows, uid))
  {
    SortNewestFirstFacts(OwnedBy(rows, uid));
    var l := Listing(rows, uid);
    forall f ensures f in l <==> f in OwnedBy(rows, uid) {
      assert f in l <==> f in multiset(l);
    }
  }

  class Env {
    /** localStorage['typecraft_demo_user'] */
    var marker: Option<Marker>
    /** The remote auth session's user, if signed in. */
    var session: Option<Account>
    /** The users table, keyed by id; `credits` is the balance. */
    var users: map<string, User>
    /** The fonts table, in insertion order. */
    var fonts: seq<Font>
    /** The credit transaction ledger. */
    var transactions: seq<Transaction>
    var trace: seq<Effect>

    ghost predicate Valid()
      reads this
    {
      UsersWellFormed(users)
    }

    function State(): Store
      reads this
    {
      Store(marker, users, fonts, transactions, trace)
    }

    constructor (marker: Option<Marker>, session: Option<Account>, users: map<string, User>, fonts: seq<Font>)
      requires UsersWellFormed(users)
      ensures Valid()
      ensures this.marker == marker && this.session == session
      ensures this.users == users && this.fonts == fonts
      ensures transactions == [] && trace == []
    {
      this.marker := marker;
      this.session := session;
      this.users := users;
      this.fonts := fonts;
      transactions := [];
      trace := [];
    }

    /** `localStorage.setItem(key, JSON.stringify(u))` */
    method WriteMarker(u: User)
      modifies this`marker, this`trace
      ensures marker == Some(Record(u)) && Truthy(marker)
      ensures trace == old(trace) + [MarkerWritten(u)]
    {
      marker := Some(Record(u));
      trace := trace + [MarkerWritten(u)];
    }

    /** `localStorage.removeItem(key)` */
    method RemoveMarker()
      modifies this`marker, this`trace
      ensures marker == None && !Truthy(marker)
      ensures trace == old(trace) + [MarkerRemoved]
    {
      marker := None;
      trace := trace + [MarkerRemoved];
    }

    /** `supabase.auth.signOut()`: the remote session ends. */
    method SignOut()
      modifies this`session, this`trace
      ensures session == None
      ensures trace == old(trace) + [SignOutCalled]
    {
      session := None;
      trace := trace + [SignOutCalled];
    }

    method Navigate(path: string)
      modifies this`trace
      ensures trace == old(trace) + [Navigated(path)]
    {
      trace := trace + [Navigated(path)];
    }

    /** One users-table lookup by id; an unreachable table reads as no row. */
    method QueryUserRow(id: string, reachable: bool) returns (row: Option<User>)
      modifies this`trace
      ensures row == Lookup(users, id, reachable)
      ensures trace == old(trace) + [UserRowQueried(id)]
    {
      row := if reachable && id in users then Some(users[id]) else None;
      trace := trace + [UserRowQueried(id)];
    }

    /** One fonts-table query for an owner, newest first; `None` is an error. */
    method QueryFonts(uid: string, reachable: bool) returns (rows: Option<seq<Font>>)
      modifies this`trace
      ensures rows.Some? <==> reachable
      ensures rows.Some? ==> rows.value == Listing(fonts, uid)
      ensures trace == old(trace) + [FontsQueried(uid)]
    {
      rows := if reachable then Some(Listing(fonts, uid)) else None;
      trace := trace + [FontsQueried(uid)];
    }

    /** The `deduct_credits` procedure: atomically checks the owner's balance,
        lowers it by `cost` and records an export entry, or changes nothing
        and reports why. */
    method DeductCredits(uid: string, cost: int, reason: string, reply: Reply, txId: string, now: string)
      returns (err: Option<string>)
      requires Valid()
      modifies this`users, this`transactions, this`trace
      ensures Valid()
      ensures err.None? <==> DeductAccepted(old(users), uid, cost, reply)
      ensures err.None? ==>
        && users == Debit(old(users), uid, cost)
        && transactions == old(transactions) + [Transaction(txId, uid, cost, Export, now)]
      ensures err.Some? ==> users == old(users) && transactions == old(transactions)
      ensures err.Some? ==> err.value == DeductRefusal(reply)
      ensures uid in old(users) ==>
        users[uid].credits + Spent(transactions, uid) == old(users[uid].credits + Spent(transactions, uid))
      ensures trace == old(trace) + [DeductCalled(cost, reason)]
    {
      trace := trace + [DeductCalled(cost, reason)];
      if reply.Rejected? {
        err := Some(reply.message);
      } else if uid !in users || cost > users[uid].credits {
        err := Some(InsufficientReply);
      } else {
        SpentAppend(transactions, Transaction(txId, uid, cost, Export, now), uid);
        users := users[uid := users[uid].(credits := users[uid].credits - cost)];
        transactions := transactions + [Transaction(txId, uid, cost, Export, now)];
        err := None;
      }
    }

    /** `from('fonts').insert(row)`: the row is stored, or nothing is. */
    method InsertFont(row: Font, reply: Reply) returns (err: Option<string>)
      modifies this`fonts, this`trace
      ensures err.None? <==> reply.Accepted?
      ensures fonts == if reply.Accepted? then old(fonts) + [row] else old(fonts)
      ensures err.Some? ==> err.value == reply.message
      ensures trace == old(trace) + [FontInsertCalled(row)]
    {
      trace := trace + [FontInsertCalled(row)];
      if reply.Accepted? {
        fonts := fonts + [row];
        err := None;
      } else {
        err := Some(reply.message);
      }
    }
  }
}

=== FILE: session.dfy ===
/** The application shell: which user the session resolves to (a stored demo
    marker first, then the remote auth session), and the route table that
    admits or redirects by whether a user is set. */
module Session {
  import opened Types
  import opened Text
  import opened Platform

  /** The shell's state that the resolution callbacks write. */
  datatype View = View(user: Option<User>, isLoading: bool)

  /** A session report from the auth provider together with what the
      users-table lookup for that session's id returned. */
  datatype AuthEvent = AuthEvent(session: Option<Account>, row: Option<User>)

  /** The user `fetchUserData` settles on: the stored row as it is, or a
      fresh record with no credits when there is none. */
  function Adopt(a: Account, row: Option<User>): User
  {
    if row.Some? then row.value else User(a.id, a.email, 0)
  }

  /** The row the lookup returns for a session, if it runs at all. */
  function RowFor(users: map<string, User>, session: Option<Account>, reachable: bool): Option<User>
  {
    if session.Some? then Lookup(users, session.value.id, reachable) else None
  }

  /** The callback on the first `getSession` result. `demo` says whether a
      marker is stored at callback time. With no session it only ends
      loading and leaves the user as it was. */
  function InitialSessionStep(demo: bool, v: View, e: AuthEvent): View
  {
    if demo then v
    else if e.session.Some? then View(Some(Adopt(e.session.value, e.row)), false)
    else v.(isLoading := false)
  }

  /** The `onAuthStateChange` callback. With no session it clears the user. */
  function AuthChangeStep(demo: bool, v: View, e: AuthEvent): View
  {
    if demo then v
    else if e.session.Some? then View(Some(Adopt(e.session.value, e.row)), false)
    else View(None, false)
  }

  /** A run of auth-change events while the marker state stays `demo`. */
  function Replay(demo: bool, v: View, evs: seq<AuthEvent>): View
    decreases |evs|
  {
    if |evs| == 0 then v else Replay(demo, AuthChangeStep(demo, v, evs[0]), evs[1..])
  }

  /** Once a demo marker is stored, no run of auth events, whatever session
      they report, changes the user or the loading flag. */
  lemma {:induction false} DemoMarkerPins(v: View, evs: seq<AuthEvent>)
    ensures Replay(true, v, evs) == v
  {
    if |evs| > 0 {
      DemoMarkerPins(v, evs[1..]);
    }
  }

  /** Without a marker, the last auth event alone decides the outcome, and
      loading has ended. */
  lemma {:induction false} LastEventWins(v: View, evs: seq<AuthEvent>)
    requires |evs| > 0
    ensures Replay(false, v, evs) == AuthChangeStep(false, v, evs[|evs| - 1])
    ensures !Replay(false, v, evs).isLoading
    decreases |evs|
  {
    if |evs| > 1 {
      LastEventWins(AuthChangeStep(false, v, evs[0]), evs[1..]);
      assert evs[1..][|evs[1..]| - 1] == evs[|evs| - 1];
    }
  }

  /** Either resolution callback without a marker ends loading; a present
      session yields a user with the session's id and a non-negative balance
      when the row came from a well-formed users table; an absent session
      reported by an auth change leaves no user. */
  lemma ResolutionOutcome(users: map<string, User>, v: View, session: Option<Account>, reachable: bool)
    requires UsersWellFormed(users)
    ensures var e := AuthEvent(session, RowFor(users, session, reachable));
      && !InitialSessionStep(false, v, e).isLoading
      && !AuthChangeStep(false, v, e).isLoading
      && (session.Some? ==>
            && AuthChangeStep(false, v, e).user.Some?
            && AuthChangeStep(false, v, e).user.value.id == session.value.id
            && AuthChangeStep(false, v, e).user.value.credits >= 0
            && InitialSessionStep(false, v, e) == AuthChangeStep(false, v, e))
      && (session.None? ==>
            && AuthChangeStep(false, v, e).user.None?
            && InitialSessionStep(false, v, e).user == v.user)
  {
  }

  /** Pages the route table can show. */
  datatype Page = Landing | SignIn | Library | Generator | BuyCredits | Guide | Terms | Privacy

  datatype Outcome = Show(page: Page) | Redirect(to: string) | NoMatch

  /** The paths that need a signed-in user. */
  const Protected: set<string> := {"/dashboard", "/generate", "/buy-credits"}

  /** The route table, by whether a user is set. The router compares paths
      without letter case and without trailing slashes. */
  function Route(path: string, signedIn: bool): Outcome
  {
    var p := RoutePath(path);
    if p == "/" then Show(Landing)
    else if p == "/auth" then (if !signedIn then Show(SignIn) else Redirect("/dashboard"))
    else if p == "/dashboard" then (if signedIn then Show(Library) else Redirect("/auth"))
    else if p == "/generate" then (if signedIn then Show(Generator) else Redirect("/auth"))
    else if p == "/buy-credits" then (if signedIn then Show(BuyCredits) else Redirect("/auth"))
    else if p == "/guide" then Show(Guide)
    else if p == "/terms" then Show(Terms)
    else if p == "/privacy" then Show(Privacy)
    else NoMatch
  }

  /** The sign-in page is shown exactly when no user is set, and only on a
      path the router reads as `/auth`; a signed-in visitor there is sent to
      the library. */
  lemma SignInGate(path: string, signedIn: bool)
    ensures Route(path, signedIn) == Show(SignIn) <==> RoutePath(path) == "/auth" && !signedIn
    ensures RoutePath(path) == "/auth" && signedIn ==> Route(path, signedIn) == Redirect("/dashboard")
  {
  }

  /** A path the router reads as protected shows its page exactly when a
      user is set, and otherwise redirects to `/auth`. */
  lemma ProtectedGate(path: string, signedIn: bool)
    requires RoutePath(path) in Protected
    ensures Route(path, signedIn).Show? <==> signedIn
    ensures !signedIn ==> Route(path, signedIn) == Redirect("/auth")
  {
  }

  /** A redirect always lands on a path the same visitor is shown. */
  lemma RedirectSettles(path: string, signedIn: bool)
    ensures Route(path, signedIn).Redirect? ==> Route(Route(path, signedIn).to, signedIn).Show?
  {
    if Route(path, signedIn).Redirect? {
      RoutePathFixed("/auth");
      RoutePathFixed("/dashboard");
      assert Route("/auth", false) == Show(SignIn);
      assert Route("/dashboard", true) == Show(Library);
    }
  }

  class App {
    var user: Option<User>
    var isLoading: bool
    /** Whether the auth-change listener is registered. */
    var subscribed: bool
    const env: Env

    function CurrentView(): View
      reads this
    {
      View(user, isLoading)
    }

    constructor (env: Env)
      ensures user == None && isLoading && !subscribed && this.env == env
    {
      user := None;
      isLoading := true;
      subscribed := false;
      this.env := env;
    }

    /** The mount effect. A stored marker that parses becomes the user, ends
        loading and returns before any listener is registered; one that does
        not parse is removed and resolution goes on; in every other case the
        session is requested and the listener registered. */
    method Mount()
      requires !subscribed
      modifies this`user, this`isLoading, this`subscribed, env`marker, env`trace
      ensures Truthy(old(env.marker)) && Parse(old(env.marker).value).Some? ==>
        && user == Parse(old(env.marker).value) && !isLoading && !subscribed
        && env.marker == old(env.marker) && env.trace == old(env.trace)
      ensures Truthy(old(env.marker)) && Parse(old(env.marker).value).None? ==>
        && env.marker == None && env.trace == old(env.trace) + [MarkerRemoved]
        && subscribed && CurrentView() == old(CurrentView())
      ensures !Truthy(old(env.marker)) ==>
        && env.marker == old(env.marker) && env.trace == old(env.trace)
        && subscribed && CurrentView() == old(CurrentView())
    {
      if Truthy(env.marker) {
        var decoded := Parse(env.marker.value);
        if decoded.Some? {
          user := decoded;
          isLoading := false;
          return;
        }
        env.RemoveMarker();
      }
      subscribed := true;
    }

    /** Adopt the users-table row for the session, or a zero-credit user
        when there is none; loading always ends. */
    method FetchUserData(id: string, email: string, reachable: bool)
      modifies this`user, this`isLoading, env`trace
      ensures CurrentView() == View(Some(Adopt(Account(id, email), Lookup(env.users, id, reachable))), false)
      ensures env.trace == old(env.trace) + [UserRowQueried(id)]
    {
      var row := env.QueryUserRow(id, reachable);
      if row.Some? {
        user := Some(row.value);
      } else {
        user := Some(User(id, email, 0));
      }
      isLoading := false;
    }

    /** The `getSession` result arriving. */
    method OnInitialSession(session: Option<Account>, reachable: bool)
      requires subscribed
      modifies this`user, this`isLoading, env`trace
      ensures CurrentView() ==
        InitialSessionStep(Truthy(env.marker), old(CurrentView()), AuthEvent(session, RowFor(env.users, session, reachable)))
      ensures env.trace == old(env.trace) +
        if !Truthy(env.marker) && session.Some? then [UserRowQueried(session.value.id)] else []
    {
      if Truthy(env.marker) {
        return;
      }
      if session.Some? {
        FetchUserData(session.value.id, session.value.email, reachable);
      } else {
        isLoading := false;
      }
    }

    /** An auth-change event arriving on the listener. */
    method OnAuthStateChange(session: Option<Account>, reachable: bool)
      requires subscribed
      modifies this`user, this`isLoading, env`trace
      ensures CurrentView() ==
        AuthChangeStep(Truthy(env.marker), old(CurrentView()), AuthEvent(session, RowFor(env.users, session, reachable)))
      ensures env.trace == old(env.trace) +
        if !Truthy(env.marker) && session.Some? then [UserRowQueried(session.value.id)] else []
    {
      if Truthy(env.marker) {
        return;
      }
      if session.Some? {
        FetchUserData(session.value.id, session.value.email, reachable);
      } else {
        user := None;
        isLoading := false;
      }
    }

    /** The effect's cleanup: the listener is released. */
    method Unmount()
      requires subscribed
      modifies this`subscribed
      ensures !subscribed
    {
      subscribed := false;
    }

    /** Demo login: the marker is written first, then the user is set. */
    method HandleDemoLogin(demoUser: User)
      modifies this`user, env`marker, env`trace
      ensures user == Some(demoUser)
      ensures env.marker == Some(Record(demoUser)) && Truthy(env.marker)
      ensures env.trace == old(env.trace) + [MarkerWritten(demoUser)]
    {
      env.WriteMarker(demoUser);
      user := Some(demoUser);
    }

    /** Logout: the marker goes, the user is cleared, then the remote
        session is signed out. */
    method HandleLogout()
      modifies this`user, env`marker, env`session, env`trace
      ensures user == None && env.marker == None && env.session == None
      ensures env.trace == old(env.trace) + [MarkerRemoved, SignOutCalled]
    {
      env.RemoveMarker();
      user := None;
      env.SignOut();
    }
  }
}

=== FILE: text.dfy ===
/** The string operations the pages use: prefix and substring tests
    (`startsWith`, `includes`), ASCII lower-casing (`toLowerCase`), the
    ordering of timestamp text, and decimal rendering of a number. */
module Text {

  predicate StartsWith(s: string, prefix: string)
  {
    |prefix| <= |s| && s[..|prefix|] == prefix
  }

  /** `s.includes(sub)`: some suffix of `s` starts with `sub`. */
  predicate Contains(s: string, sub: string)
    decreases |s|
  {
    StartsWith(s, sub) || (|s| > 0 && Contains(s[1..], sub))
  }

  /** An occurrence of `sub` at any position makes `s` contain it. */
  lemma {:induction false} ContainsAt(s: string, sub: string, i: nat)
    requires i + |sub| <= |s| && s[i..i + |sub|] == sub
    ensures Contains(s, sub)
    decreases i
  {
    if i > 0 {
      assert s[1..][i - 1..i - 1 + |sub|] == s[i..i + |sub|];
      ContainsAt(s[1..], sub, i - 1);
    } else {
      assert s[..|sub|] == s[i..i + |sub|];
    }
  }

  /** Every text that contains `sub` has an occurrence of it at some index. */
  lemma {:induction false} ContainsWitness(s: string, sub: string) returns (i: nat)
    requires Contains(s, sub)
    ensures i + |sub| <= |s| && s[i..i + |sub|] == sub
    decreases |s|
  {
    if StartsWith(s, sub) {
      i := 0;
    } else {
      var j := ContainsWitness(s[1..], sub);
      assert s[1..][j..j + |sub|] == s[j + 1..j + 1 + |sub|];
      i := j + 1;
    }
  }

  function LowerChar(c: char): char
  {
    if 'A' <= c <= 'Z' then (c as int + 32) as char else c
  }

  /** ASCII lower-casing, character by character. */
  function Lower(s: string): (r: string)
    ensures |r| == |s|
    ensures forall i :: 0 <= i < |s| ==> r[i] == LowerChar(s[i])
  {
    if |s| == 0 then [] else [LowerChar(s[0])] + Lower(s[1..])
  }

  /** Lower-casing twice is lower-casing once. */
  lemma LowerIdempotent(s: string)
    ensures Lower(Lower(s)) == Lower(s)
  {
  }

  /** Text with no upper-case ASCII letter is its own lower-case form. */
  lemma LowerOfLower(s: string)
    requires forall i :: 0 <= i < |s| ==> !('A' <= s[i] <= 'Z')
    ensures Lower(s) == s
  {
  }

  /** The path without its trailing slashes; a lone `/` is kept. */
  function TrimSlashes(p: string): (r: string)
    ensures |r| <= |p| && r == p[..|r|]
    decreases |p|
  {
    if |p| > 1 && p[|p| - 1] == '/' then TrimSlashes(p[..|p| - 1]) else p
  }

  /** Trimming stops at the last character that is not a slash. */
  lemma {:induction false} TrimKeepsNonSlash(p: string, i: nat)
    requires i < |p| && p[i] != '/'
    ensures i < |TrimSlashes(p)|
    decreases |p|
  {
    if |p| > 1 && p[|p| - 1] == '/' {
      TrimKeepsNonSlash(p[..|p| - 1], i);
    }
  }

  /** A path as the router compares it: trailing slashes dropped, letters
      folded to lower case. */
  function RoutePath(p: string): string
  {
    Lower(TrimSlashes(p))
  }

  /** A path with no trailing slash and no upper-case letter compares as
      itself. */
  lemma RoutePathFixed(p: string)
    requires |p| <= 1 || p[|p| - 1] != '/'
    requires forall i :: 0 <= i < |p| ==> !('A' <= p[i] <= 'Z')
    ensures RoutePath(p) == p
  {
    LowerOfLower(p);
  }

  /** Lexicographic order on text, the order of ISO-8601 timestamps. */
  predicate LexLe(a: string, b: string)
    decreases |a|
  {
    |a| == 0 || (|b| > 0 && (a[0] < b[0] || (a[0] == b[0] && LexLe(a[1..], b[1..]))))
  }

  /** Any two timestamps are comparable. */
  lemma {:induction false} LexTotal(a: string, b: string)
    ensures LexLe(a, b) || LexLe(b, a)
    decreases |a|
  {
    if |a| > 0 && |b| > 0 && a[0] == b[0] {
      LexTotal(a[1..], b[1..]);
    }
  }

  function DigitChar(d: nat): char
    requires d < 10
  {
    ('0' as int + d) as char
  }

  /** Decimal rendering of a non-negative integer, as a template literal
      renders a millisecond clock reading. */
  function DecimalDigits(n: nat): (s: string)
    ensures |s| >= 1
    ensures forall i :: 0 <= i < |s| ==> '0' <= s[i] <= '9'
    ensures n >= 10 ==> s[0] != '0'
    decreases n
  {
    if n < 10 then [DigitChar(n)] else DecimalDigits(n / 10) + [DigitChar(n % 10)]
  }

  /** The number a string of decimal digits denotes. */
  function DigitsValue(s: string): int
  {
    if |s| == 0 then 0 else 10 * DigitsValue(s[..|s| - 1]) + (s[|s| - 1] as int - '0' as int)
  }

  /** Rendering then reading back gives the same number. */
  lemma {:induction false} DecimalRoundTrip(n: nat)
    ensures DigitsValue(DecimalDigits(n)) == n
    decreases n
  {
    var s := DecimalDigits(n);
    if n >= 10 {
      DecimalRoundTrip(n / 10);
      assert s[..|s| - 1] == DecimalDigits(n / 10);
    }
  }

  /** Distinct clock readings render to distinct text. */
  lemma DecimalInjective(m: nat, n: nat)
    requires DecimalDigits(m) == DecimalDigits(n)
    ensures m == n
  {
    DecimalRoundTrip(m);
    DecimalRoundTrip(n);
  }
}

=== FILE: types.dfy ===
/** Records shared by every page of the font service: the user, the font
    library row, the credit transaction, and the stored demo-session marker. */
module Types {

  datatype Option<+T> = None | Some(value: T)

  /** Lifecycle status of a font record. */
  datatype FontStatus = Draft | Processing | Ready | Failed

  /** A row of the users table: an identity and its credit balance. */
  datatype User = User(id: string, email: string, credits: int)

  /** A row of the fonts table. The four URL columns are nullable. */
  datatype Font = Font(
    id: string,
    user_id: string,
    style_name: string,
    prompt: string,
    status: FontStatus,
    preview_url: Option<string>,
    download_ttf_url: Option<string>,
    download_otf_url: Option<string>,
    download_woff2_url: Option<string>,
    created_at: string)

  datatype TransactionKind = Purchase | Export

  /** A row of the credit transaction ledger. */
  datatype Transaction = Transaction(
    id: string,
    user_id: string,
    credits: int,
    kind: TransactionKind,
    created_at: string)

  /** The user the remote auth provider reports for the current session. */
  datatype Account = Account(id: string, email: string)

  /** What the browser holds under the demo-user key. A record written by
      the application always serialises to non-empty text that parses back
      to the same record; anything else is kept as raw text that does not
      parse. */
  datatype Marker = Record(user: User) | Unparsable(raw: string)

  /** JavaScript truthiness of the stored text: only the empty string is falsy. */
  predicate Truthy(m: Option<Marker>)
  {
    m.Some? && m.value != Unparsable("")
  }

  /** Decoding the stored text (JSON.parse followed by use as a user). */
  function Parse(m: Marker): (r: Option<User>)
    ensures r.Some? <==> m.Record?
    ensures m.Record? ==> r.value == m.user
  {
    match m
    case Record(u) => Some(u)
    case Unparsable(_) => None
  }

  /** The identity a page acts for: the signed-in account, or the demo user
      decoded from the stored marker. */
  datatype Caller = AuthCaller(account: Account) | DemoCaller(user: User)
  {
    function Id(): string
    {
      match this
      case AuthCaller(a) => a.id
      case DemoCaller(u) => u.id
    }

    function Email(): string
    {
      match this
      case AuthCaller(a) => a.email
      case DemoCaller(u) => u.email
    }
  }

  /** The fixed demo account the sign-in page hands to the demo login. */
  const DemoUser: User := User("demo-user-id", "demo@typecraft.ai", 100)
}
